=== FILE: README.md ===
# Equipment borrow ledger — a Dafny model

This project models the core of a school equipment checkout tracker. The
tracker is an Express/Prisma backend with a React front end. Administrators
register items. Users signed in with a school Google account borrow and
return them. A daily job emails reminders and overdue notices.

The model covers the following parts:

- **Store** (`store.dfy`): the users, items and borrows tables. Each table is
  a sequence with an autoincrement counter. The store invariant `Valid` keeps
  ids unique and below the counter, emails unique, `returnedAt` set exactly
  on returned rows, every borrow's user and item present, and at most one
  unreturned borrow per item.
- **Borrow routes** (`borrow_routes.dfy`): `POST /borrow`,
  `POST /borrow/return/:id`, `GET /borrow/items` and `GET /borrow/my`. Each
  is a pure function from the store to a status and a new store.
- **Reminder job** (`scheduler.dfy`, `clock.dfy`): one run of the 06:00 job.
  It computes the day windows, runs the three scans, and sends one notice per
  record plus one admin alert per overdue record. It also models where a
  failure stops the run.
- **Admin allow-list** (`admin_list.dfy`): the JSON file with its
  default-on-missing and default-on-unreadable behaviour, `addAdmin` and
  `removeAdmin`.
- **Mail** (`mailer.dfy`): the six messages, with recipients, subjects and
  texts exactly as written. A send never rejects.
- **Login and gates** (`google_auth.dfy`, `gates.dfy`): the Google verify
  callback, session serialize/deserialize, `ensureAuth` and `ensureAdmin`.
- **Admin routes** (`admin_routes.dfy`, `uploads.dfy`): the guarded
  `/admin` router, item create with the multer file name rule, item delete
  with its image removal, the open-borrow listing, and the allow-list
  routes.
- **Client helpers** (`api_client.dfy`): the `_ts` cache-busting parameter
  and the `apiWithRetry` policy.

Time is integer milliseconds of local wall-clock time, and every day is
86 400 000 ms long. I/O appears as parameters, as follows:

| I/O in the source | In the model |
|---|---|
| admin file on disk | `Absent`, `Stored(list)` or `Unreadable` |
| whether a file write succeeds | the flag `writable` |
| the mail transport | the flag `transportOk` |
| `new Date(dueDate)` | the function `parseDate` |
| `toLocaleString` | the function `fmt` |
| `FROM_EMAIL` | `from: Option<string>` |
| query failures inside the job | `Faults` |
| the server's answer to each client attempt | `answers` |
| files on disk | a set of paths |

Some behaviour one might expect from the route and function names is not
in the code; the model follows the code. In particular:

- `POST /borrow` does no date validation. It rejects neither a past date
  nor one more than a year out. It only requires both fields to be truthy.
  It sends no admin borrow notice (`notifyAdminsBorrow` is never called).
- Admin mail goes to the whole allow-list joined with `","`. No
  per-admin preferences filter it, and no email-preference routes exist.
- A failing return notice cannot turn a return into a 500, because every
  send catches its transport error. Once an open record is found, the
  return answers 500 only when `getAdminList` throws, and by then the
  record is already marked returned. Before that, a non-integer id also
  gives a 500, with nothing changed.
- `deserializeUser` restores the stored row only. `isAdmin` is computed at
  login and not on later requests. Under the `ensureAdmin` in
  `ensureAuth.ts`, a user restored from a session is never an admin
  (`GoogleAuth.AdminGateAfterLogin`, `AdminRoutes.SessionUsersLockedOut`).
- Item delete has no open-borrow check of its own. The store refuses to
  delete any item a borrow refers to, returned or not.
- In the reminder job, `getAdminList()` is called before the `try`. A
  missing admin file that cannot be written therefore rejects the job's
  promise.

## Model

| member | source | states |
|---|---|---|
| Clock.StartOfDay | backend/src/services/scheduler.ts:23-24 | midnight of an instant's day: a whole number of days, at or before the instant and less than a day before it |
| Clock.EndOfDay | backend/src/routes/borrow.ts:73-75 | the last millisecond of the instant's day: one before a whole number of days, at or after the instant and less than a day after it |
| Clock.InDay | backend/src/services/scheduler.ts:62-67 | an instant lies within a day's start..end window exactly when it falls on that day |
| Clock.NextDay | backend/src/services/scheduler.ts:28-33 | moving a day ahead moves the day number, its start and its end by exactly one day |
| Store.JoinRows | backend/src/services/scheduler.ts:48 | each borrow joined with its own user and item rows, order and count kept |
| Store.FindUserByEmail | backend/src/auth/google.ts:39-43 | the position of the user with that email, or none exactly when no user has it |
| AdminList.GetAdminListStable | backend/src/utils/adminList.ts:13-29 | once a read succeeds, reading the file it left gives the same list and file again, even if the disk no longer accepts writes |
| AdminList.SaveThenRead | backend/src/utils/adminList.ts:20-39 | round trip: a successful save is read back as exactly the saved list |
| AdminList.RemoveAll | backend/src/utils/adminList.ts:53 | the email is gone, every other email keeps its number of occurrences, and the list does not grow |
| AdminList.AddAdmin | backend/src/utils/adminList.ts:13-48 | a listed email leaves the file untouched; an absent one is appended at the end, or the call throws when the write is refused; a missing file becomes the defaults (plus the email), an unreadable one is replaced by the defaults plus the email only when the email is not a default |
| AdminList.RemoveAdmin | backend/src/utils/adminList.ts:13-55 | always rewrites the file; succeeds exactly when writable; the file then holds the list read (the defaults for a missing or unreadable file) with every copy of the email filtered out |
| AdminList.AddThenContains | backend/src/utils/adminList.ts:42-48 | after a successful add the list read back contains the email |
| AdminList.AddKeepsNoDuplicates | backend/src/utils/adminList.ts:44-46 | a duplicate-free list stays duplicate-free under add |
| AdminList.RemoveAbsent | backend/src/utils/adminList.ts:53 | filtering out an absent email changes nothing, order included |
| AdminList.RemoveAllAppend | backend/src/utils/adminList.ts:53 | the filter distributes over concatenation |
| AdminList.AddRemoveRoundTrip | backend/src/utils/adminList.ts:42-55 | adding an absent email and then removing it restores the original list |
| Text.SplitJoin | backend/src/services/mailer.ts:73 | joining comma-free addresses with ',' and splitting on ',' gives them back |
| Text.IntRoundTrip | frontend/src/services/api.ts:21 | an integer rendered in a template literal reads back as itself |
| Mailer.AdminRecipients | backend/src/services/mailer.ts:73 | the `to` of admin mail splits back into exactly the admin list |
| Mailer.RenderText | backend/src/services/mailer.ts:24-236 | borrower texts open with `Hello <name>,`, admin texts with `Hello Admin,` |
| Mailer.ReminderMail | backend/src/services/mailer.ts:24-49 | to the borrower, subject `Reminder: '<item>' due on <date>`, and the full reminder text greeting the borrower |
| Mailer.ReturnNoticeMail | backend/src/services/mailer.ts:57-80 | to the joined admin list, subject `Return Notice: '<item>' returned by <name>` |
| Mailer.DueTodayMail | backend/src/services/mailer.ts:89-116 | to the borrower, subject `'<item>' is due TODAY` with no date, text greeting the borrower |
| Mailer.OverdueMail | backend/src/services/mailer.ts:125-154 | to the borrower, subject `OVERDUE: '<item>' was due on <date>`, text greeting the borrower |
| Mailer.AdminOverdueMail | backend/src/services/mailer.ts:164-196 | to the joined admin list, subject `Alert: Item '<item>' is OVERDUE` |
| Mailer.BorrowNoticeMail | backend/src/services/mailer.ts:206-236 | to the joined admin list, subject `Item Borrowed: '<item>' by <name>` |
| Mailer.AdminMailNamesEveryAdmin | backend/src/services/mailer.ts:189 | every listed admin is a recipient of the single admin message |
| BorrowRoutes.CreateBorrow | backend/src/routes/borrow.ts:56-88 | 400 exactly for a falsy field; else 409 exactly when the item has an open borrow; else 500 for an unparsable date or missing item/user row; else 201 with one new open record due at the end of the given day |
| BorrowRoutes.ReturnBorrow | backend/src/routes/borrow.ts:94-122 | 500 with nothing changed for a non-integer id; 404 exactly for a missing or already returned record; otherwise the record is marked returned at `now`, then 500 with the admin file unchanged if the admin list throws, else 200 with the exact return notice (borrower's display name, item name, admin list) handed to the transport |
| BorrowRoutes.AvailableItems | backend/src/routes/borrow.ts:17-32 | exactly the items with no unreturned borrow, each listed as many times as it is stored and no other item at all |
| BorrowRoutes.MyBorrows | backend/src/routes/borrow.ts:38-49 | exactly the caller's unreturned borrows, each with its stored item row and no user; with unique borrow ids no record appears twice |
| BorrowRoutes.CreatePreservesValid | backend/src/routes/borrow.ts:64-84 | a create keeps the store invariant, so at most one open borrow per item |
| BorrowRoutes.MarkReturnedPreservesValid | backend/src/routes/borrow.ts:109-112 | marking a record returned keeps the store invariant |
| BorrowRoutes.ReturnPreservesValid | backend/src/routes/borrow.ts:98-121 | a return keeps the store invariant |
| BorrowRoutes.ReturnChangesOnlyThatRecord | backend/src/routes/borrow.ts:109-112 | users, items and every other borrow are unchanged |
| BorrowRoutes.ReturnIgnoresTransport | backend/src/services/mailer.ts:70-79 | a refused send changes neither the status, the store, the admin file nor the message; the send resolves either way and only the logging differs |
| BorrowRoutes.ReturnIgnoresCaller | backend/src/routes/borrow.ts:95-106 | the reply does not depend on who asks: no ownership check |
| BorrowRoutes.ReturnTwice | backend/src/routes/borrow.ts:104-112 | a second return of the same record answers 404 and changes nothing |
| BorrowRoutes.CreateLeavesAvailable | backend/src/routes/borrow.ts:66-84 | after a create the item is not available and the record is in the caller's list |
| BorrowRoutes.ReturnRestoresAvailable | backend/src/routes/borrow.ts:104-112 | returning an item's open borrow makes the item available again |
| BorrowRoutes.Step | backend/src/routes/borrow.ts:56-122 | any one borrow or return request keeps the store invariant |
| BorrowRoutes.Run | backend/src/routes/borrow.ts:56-122 | any sequence of requests keeps at most one open borrow per item |
| Scheduler.WindowsAt | backend/src/services/scheduler.ts:22-33 | today's window contains `now` and spans its day; tomorrow's is today's shifted by one day |
| Scheduler.RowNotices | backend/src/services/scheduler.ts:92-109 | each notice of a record is about that record and belongs to the scan that emits its kind |
| Scheduler.ScanNotices | backend/src/services/scheduler.ts:40-109 | notices only for records the scan's query selects, each of the scan's own kind |
| Scheduler.MailOf | backend/src/services/scheduler.ts:51-109 | each kind sends its own message: the reminder, due-today and overdue mails (exact subjects) to the borrower's email, and the overdue alert (exact subject, borrower's name and email) to the joined admin list |
| Scheduler.RunJob | backend/src/services/scheduler.ts:36-112 | rejects exactly when the admin list throws; a failing scan is caught and stops that scan and the later ones, keeping the earlier scans' sends |
| Scheduler.BucketsDisjoint | backend/src/services/scheduler.ts:39-90 | no borrow is selected by two of the three scans |
| Scheduler.BucketOfDueDay | backend/src/services/scheduler.ts:39-90 | an open borrow due tomorrow, today or before today is selected by the matching scan |
| Scheduler.ScanCount | backend/src/services/scheduler.ts:51-109 | a scan sends a record's notice of a kind once if selected, else never |
| Scheduler.CompletedRunCounts | backend/src/services/scheduler.ts:38-109 | a full run sends each borrow exactly one notice of each kind whose scan selects it and none of the others |
| Scheduler.RunNoticesAreSound | backend/src/services/scheduler.ts:51-109 | every send concerns an open borrow and its own user; borrower mail to that user, alerts to the admins read |
| Gates.AuthGateOnlyChangesStatus | backend/src/middlewares/ensureAuth.ts:4-18 | `ensureAuth` before `ensureAdmin` lets through exactly what `ensureAdmin` alone does; it only turns the 403 for a request without a user into 401 |
| Gates.AdminChain | backend/src/routes/admin.ts:27 | no user gives 401; a user without a true flag gives 403; otherwise the request goes on |
| GoogleAuth.Upsert | backend/src/auth/google.ts:39-43 | an existing email's row gets the new Google id and name in place; otherwise a new row with the next id |
| GoogleAuth.Login | backend/src/auth/google.ts:31-55 | an empty email list errors; refused with `Invalid email domain` exactly for a missing or out-of-domain email; for a school email the user is upserted, and the login succeeds exactly when the admin list can be read, with `isAdmin` true exactly for an allow-listed email |
| GoogleAuth.DeserializeUser | backend/src/auth/google.ts:14-21 | the stored row with that id and no admin flag, or none exactly when no row has it |
| GoogleAuth.UpsertPreservesValid | backend/src/auth/google.ts:39-43 | the upsert keeps ids and emails unique and every borrow's user present |
| GoogleAuth.LoginPreservesValid | backend/src/auth/google.ts:31-55 | a login keeps the store invariant |
| GoogleAuth.FindUserOfStored | backend/src/auth/google.ts:16 | with unique ids, the lookup by a stored user's id finds that user |
| GoogleAuth.SessionRoundTrip | backend/src/auth/google.ts:9-21 | serialize then deserialize gives back the stored row without the admin flag |
| GoogleAuth.AdminGateAfterLogin | backend/src/auth/google.ts:46-51 | the login-time user passes the admin gate exactly when allow-listed; the same user restored from the session gets 403 |
| GoogleAuth.GmailDefaultCannotLogIn | backend/src/auth/google.ts:34-36 | the default admin outside the school domain is always refused at login |
| GoogleAuth.AdminCheckIsCaseSensitive | backend/src/auth/google.ts:46-47 | the lower-case form of a listed mixed-case address is not an admin |
| Uploads.LastSegment | backend/src/routes/admin.ts:20 | the text after the last '/' once trailing slashes are dropped: a suffix, free of '/', preceded by '/' or the whole path |
| Uploads.SegmentExt | backend/src/routes/admin.ts:19 | non-empty exactly when the name has a dot after its first character and is not `..`; then the suffix from the last dot, never the whole name |
| Uploads.Stem | backend/src/routes/admin.ts:20 | the base name: with the extension appended it gives back the last segment |
| Uploads.UploadName | backend/src/routes/admin.ts:18-22 | stem, '-', the timestamp digits and the extension; no '/' |
| Uploads.SegmentExtOfSuffix | backend/src/routes/admin.ts:19 | a non-empty name followed by a dot-led, dot-free extension has that extension, unless the whole is `..` |
| Uploads.UploadKeepsExtension | backend/src/routes/admin.ts:18-22 | the stored name has the original's extension |
| Uploads.UploadNamesDiffer | backend/src/routes/admin.ts:21 | the same file uploaded at two instants gets two names |
| Uploads.AsWrittenMissesUpload | backend/src/routes/admin.ts:54 | as written, the delete looks for `/uploads/<name>`, never the stored file |
| Uploads.AsWrittenExample | backend/src/routes/admin.ts:54 | a concrete backend directory and name showing the mismatch |
| Uploads.ImageFileFindsUpload | backend/src/routes/admin.ts:14-22 | corrected, the recorded `imagePath` resolves to the stored file |
| AdminRoutes.CreateItemRoute | backend/src/routes/admin.ts:36-45 | the upload is stored either way; 201 exactly with a name, recording `imagePath` as `/uploads/<name>` or null; else 500 with the store unchanged |
| AdminRoutes.DeleteItemWith | backend/src/routes/admin.ts:48-62 | 204 exactly for an existing item no borrow refers to, which alone is removed; the image file goes first whenever the item has a non-empty `imagePath`, even if the delete then fails |
| AdminRoutes.DeleteItemAsWritten | backend/src/routes/admin.ts:48-62 | as written, the path unlinked is the absolute `imagePath` itself |
| AdminRoutes.DeleteItemRoute | backend/src/routes/admin.ts:48-62 | corrected, an item recorded as `/uploads/<name>` loses the file stored under that name |
| AdminRoutes.OpenBorrows | backend/src/routes/admin.ts:65-71 | exactly the unreturned borrows, each joined with its stored user and item rows; with unique borrow ids no record appears twice |
| AdminRoutes.OpenBorrowsOnePerItem | backend/src/routes/admin.ts:65-71 | under the store invariant the listing names each item at most once, and names exactly the items that have an unreturned borrow (the items missing from `GET /borrow/items`) |
| AdminRoutes.AddAdminRoute | backend/src/routes/admin.ts:80-88 | 201 exactly when the add succeeds; the response carries the list read back after `addAdmin`, which contains the email, and the admin file is the one that read left; else 500 with nothing changed |
| AdminRoutes.RemoveAdminRoute | backend/src/routes/admin.ts:91-99 | 200 exactly when writable; the response carries the list read before with every copy of the email removed, which is also what the file now holds; else 500 with nothing changed |
| AdminRoutes.Handle | backend/src/routes/admin.ts:27-99 | a gate's 401/403 leaves every state untouched and no route answers 401/403 otherwise; an admin's request gets the matching route, the item delete as written; listing admins changes only the admin file, as the read leaves it |
| AdminRoutes.HandlePreservesValid | backend/src/routes/admin.ts:27-99 | every request to the admin router keeps the store invariant |
| AdminRoutes.CreateItemPreservesValid | backend/src/routes/admin.ts:36-45 | item create keeps the store invariant |
| AdminRoutes.DeleteItemPreservesValid | backend/src/routes/admin.ts:48-62 | item delete keeps the store invariant |
| AdminRoutes.DeleteCreated | backend/src/routes/admin.ts:36-62 | deleting the item just created succeeds and restores the item table |
| AdminRoutes.CreateThenDeleteRemovesImage | backend/src/routes/admin.ts:36-62 | corrected, create-then-delete leaves no stored image behind |
| AdminRoutes.CreateThenDeleteAsWrittenKeepsImage | backend/src/routes/admin.ts:48-62 | as written, create-then-delete leaves the stored image on disk |
| AdminRoutes.SessionUsersLockedOut | backend/src/routes/admin.ts:27 | a user restored from the session gets 401 or 403 from every admin route, with nothing changed |
| ApiClient.WithTimestamp | frontend/src/services/api.ts:20-21 | the stamped URL starts with the URL, has a query, and ends in `_ts=<ms>` |
| ApiClient.SplitStamped | frontend/src/services/api.ts:21 | a URL, a separator and a stamp read back as that URL and stamp |
| ApiClient.TimestampRoundTrip | frontend/src/services/api.ts:20-21 | the URL and stamp are recovered; the separator is '&' exactly when the URL had a '?' |
| ApiClient.RetryFrom | frontend/src/services/api.ts:65-91 | the attempts from a given one on, with the same policy as `ApiWithRetry` |
| ApiClient.DoubledDelays | frontend/src/services/api.ts:86-87 | doubling the delay per retry gives `retryDelay · 2^j` before retry j+1 |
| ApiClient.ApiWithRetry | frontend/src/services/api.ts:65-91 | at most `retries + 1` attempts and one when `retries <= 0`, each one HTTP request (none for an unknown method); waits `retryDelay · 2^j`; the first success is returned at once; otherwise the last error is rethrown, `Unsupported` for an unknown method |
| ApiClient.MoreRetriesKeepSuccess | frontend/src/services/api.ts:84-87 | allowing more retries never changes a successful call |
| ApiClient.DefaultPolicy | frontend/src/services/api.ts:69-70 | with the defaults and a server that never answers: waits of 1000 and 2000 ms, three requests, failure of the third |

## Left out

- HTTP plumbing is not modelled: Express, JSON encoding, cookies and the session store. `backend/src/app.ts` and `backend/src/routes/auth.ts` are not part of this model.
- The OAuth handshake with Google is not modelled. Only the verify callback's decision is.
- Concurrency is not modelled: requests run one at a time. The source's check-then-create race on `POST /borrow` therefore cannot show up.
- The Prisma schema is not part of this model. The model assumes required relations from borrow to user and to item with Prisma's default referential actions, a unique email and autoincrement ids. A create whose user or item row is missing and a delete of a referenced item both fail with 500.
- Database failures other than those the schema causes are not modelled. These include lost connections and failing reads in `GET /borrow/items` and `GET /borrow/my`. In the reminder job, query failures are the `Faults` parameter.
- `BorrowRoutes.CreateBorrow`: `itemId` is modelled as an integer or absent. `Number()` coercion of strings such as `"3"` and the truthy string `"0"` are not modelled.
- `BorrowRoutes.CreateBorrow`: `new Date(dueDate)` and the local time zone are the parameter `parseDate`. Days are uniform, so daylight-saving transitions are not modelled.
- `Mailer.RenderText`: the due date's locale formatting is the parameter `fmt`. The rendered date text is opaque.
- `AdminList.GetAdminList`: a file that parses to something other than a list of strings is treated as a list. A missing `email` in the body of `POST/DELETE /admin/admins` is not modelled (the source would store JSON `null`).
- The cron schedule and its time zone are not modelled. `Scheduler.RunJob` models one firing at a given `now`.
- `AdminRoutes.Handle`: the multer size limit (8 MB), the creation of the upload directory at start-up, and failures of `existsSync`/`unlinkSync` are not modelled.
- `Uploads.LastSegment`: only '/' is a separator. `.` and `..` segments are not interpreted.
- `Uploads.Resolve`: does not normalise `.` or `..` segments or repeated slashes. The model never needs them, because the backend directory is a parameter.
- `admin.ts` imports `ensureAdmin` from `backend/src/middlewares/ensureAdmin`, which is not part of this model. The gate modelled is the `ensureAdmin` of `backend/src/middlewares/ensureAuth.ts`.
- `GoogleAuth.AdminGateAfterLogin`: the session half assumes the `ensureAdmin` of `backend/src/middlewares/ensureAuth.ts`. The router imports `ensureAdmin` from `backend/src/middlewares/ensureAdmin`, which is not part of this model. The 403 for restored users holds only if that module reads `isAdmin` the same way.
- `AdminRoutes.SessionUsersLockedOut`: rests on the same substitution of `ensureAdmin`, so it describes the router under `ensureAuth.ts`'s gate and not necessarily the program as deployed.
- `Scheduler.RunJob`: the transport result of each send in the job is not a parameter. Every send catches its own error, so it cannot change the run; `BorrowRoutes.ReturnIgnoresTransport` proves the same for the return route.
- `GoogleAuth.DeserializeUser`: a failing `findUnique` (`done(err)`) is not modelled.
- `ApiClient.ApiWithRetry`: `retries` and `retryDelay` are integers. Fractional values, the request `data`, axios's 10-second timeout and the interceptors' logging are not modelled. Timeouts and server errors alike are a `false` in `answers`.
- The React components and the front end's `auth.ts` and `dateUtils.ts` are not modelled: they only render and redirect.

## Findings

| source | as written | input that shows it | evidently intended | confidence | as-written member | corrected member |
|---|---|---|---|---|---|---|
| backend/src/routes/admin.ts:54 | `path.resolve(__dirname, '../../', item.imagePath)` with `imagePath` = `/uploads/<name>`; the absolute last argument discards the backend directory, so the path checked and unlinked is `/uploads/<name>` | backend directory `/srv/app/backend`, upload stored as `/srv/app/backend/uploads/cam-1700000000000.png`, recorded `imagePath` `/uploads/cam-1700000000000.png`; the delete looks at `/uploads/cam-1700000000000.png` and leaves the stored file | resolve `imagePath` relative to the backend directory, which removes the file multer stored | not executed | AdminRoutes.DeleteItemAsWritten | AdminRoutes.DeleteItemRoute |

=== FILE: admin_list.dfy ===
/** The admin allow-list kept in a JSON file. The file is `Absent`,
    `Stored` with a list of emails, or `Unreadable` (a read or parse
    failure). Whether the disk accepts writes during a call is the
    parameter `writable`; a refused write throws, as `writeFileSync` does. */
module AdminList {
  import opened Base

  datatype AdminFile = Absent | Stored(emails: seq<string>) | Unreadable

  /** What `getAdminList` returns, and the file after it. */
  datatype Read = Read(admins: seq<string>, file: AdminFile)

  const DefaultAdmins: seq<string> := [
    "hsinger@crescentschool.org",
    "CMcGregor@crescentschool.org",
    "deceasedwolf@gmail.com",
    "mathisluo@crescentschool.org"
  ]

  /** Membership as `includes`: exact, case-sensitive string equality. */
  predicate IsAdmin(admins: seq<string>, email: string)
  {
    email in admins
  }

  predicate NoDuplicates(admins: seq<string>)
  {
    forall i, j :: 0 <= i < j < |admins| ==> admins[i] != admins[j]
  }

  /** `getAdminList`: a missing file is first written with the defaults
      (and the call throws if that write is refused); an unreadable file
      yields a fresh copy of the defaults and is left as it is. */
  function GetAdminList(file: AdminFile, writable: bool): (r: Outcome<Read>)
    ensures r.Threw? <==> file.Absent? && !writable
    ensures r.Ok? && file.Stored? ==> r.value == Read(file.emails, file)
    ensures r.Ok? && file.Absent? ==> r.value == Read(DefaultAdmins, Stored(DefaultAdmins))
    ensures r.Ok? && file.Unreadable? ==> r.value == Read(DefaultAdmins, Unreadable)
  {
    match file
    case Absent => if writable then Ok(Read(DefaultAdmins, Stored(DefaultAdmins))) else Threw
    case Stored(emails) => Ok(Read(emails, file))
    case Unreadable => Ok(Read(DefaultAdmins, Unreadable))
  }

  /** `saveAdminList`: overwrite the file, or rethrow the write error. */
  function SaveAdminList(admins: seq<string>, writable: bool): (r: Outcome<AdminFile>)
    ensures r.Ok? <==> writable
    ensures r.Ok? ==> r.value == Stored(admins)
  {
    if writable then Ok(Stored(admins)) else Threw
  }

  /** The list with every occurrence of `email` dropped (`filter(e => e !== email)`). */
  function RemoveAll(admins: seq<string>, email: string): (r: seq<string>)
    ensures email !in r
    ensures forall x :: x != email ==> multiset(r)[x] == multiset(admins)[x]
    ensures forall x :: x != email ==> (x in r <==> x in admins)
    ensures |r| <= |admins|
  {
    assert |admins| > 0 ==> admins == [admins[0]] + admins[1..];
    if |admins| == 0 then []
    else if admins[0] == email then RemoveAll(admins[1..], email)
    else [admins[0]] + RemoveAll(admins[1..], email)
  }

  /** `addAdmin`: append the email unless it is already listed; a listed
      email causes no write. A missing file is first written with the
      defaults; an unreadable one is read as the defaults and replaced only
      when the email has to be appended. */
  function AddAdmin(file: AdminFile, writable: bool, email: string): (r: Outcome<AdminFile>)
    ensures file.Stored? && email in file.emails ==> r == Ok(file)
    ensures file.Stored? && email !in file.emails ==>
      r == (if writable then Ok(Stored(file.emails + [email])) else Threw)
    ensures file.Absent? ==>
      r == (if !writable then Threw
            else if email in DefaultAdmins then Ok(Stored(DefaultAdmins))
            else Ok(Stored(DefaultAdmins + [email])))
    ensures file.Unreadable? && email in DefaultAdmins ==> r == Ok(Unreadable)
    ensures file.Unreadable? && email !in DefaultAdmins ==>
      r == (if writable then Ok(Stored(DefaultAdmins + [email])) else Threw)
  {
    match GetAdminList(file, writable)
    case Threw => Threw
    case Ok(read) =>
      if IsAdmin(read.admins, email) then Ok(read.file)
      else SaveAdminList(read.admins + [email], writable)
  }

  /** `removeAdmin`: always rewrites the file with the filtered list. */
  function RemoveAdmin(file: AdminFile, writable: bool, email: string): (r: Outcome<AdminFile>)
    ensures r.Ok? <==> writable
    ensures r.Ok? ==> r.value.Stored? && email !in r.value.emails
    ensures r.Ok? && file.Stored? ==> r.value == Stored(RemoveAll(file.emails, email))
    ensures r.Ok? && !file.Stored? ==> r.value == Stored(RemoveAll(DefaultAdmins, email))
  {
    match GetAdminList(file, writable)
    case Threw => Threw
    case Ok(read) => SaveAdminList(RemoveAll(read.admins, email), writable)
  }

  /** Reading is stable: once a read has succeeded, reading the file it
      left gives the same list and file again, whether or not the disk
      accepts writes the second time. */
  lemma GetAdminListStable(file: AdminFile, writable: bool, again: bool)
    requires GetAdminList(file, writable).Ok?
    ensures GetAdminList(GetAdminList(file, writable).value.file, again) == GetAdminList(file, writable)
  {
  }

  /** Round trip: a successful save is read back as exactly the saved list. */
  lemma SaveThenRead(admins: seq<string>, writable: bool, again: bool)
    requires SaveAdminList(admins, writable).Ok?
    ensures GetAdminList(SaveAdminList(admins, writable).value, again) == Ok(Read(admins, Stored(admins)))
  {
  }

  /** After a successful `addAdmin` the list read back holds the email. */
  lemma AddThenContains(file: AdminFile, writable: bool, email: string)
    requires AddAdmin(file, writable, email).Ok?
    ensures var after := GetAdminList(AddAdmin(file, writable, email).value, writable);
      after.Ok? && IsAdmin(after.value.admins, email)
  {
  }

  /** A duplicate-free list stays duplicate-free under `addAdmin`. */
  lemma AddKeepsNoDuplicates(admins: seq<string>, writable: bool, email: string)
    requires NoDuplicates(admins)
    requires AddAdmin(Stored(admins), writable, email).Ok?
    ensures NoDuplicates(AddAdmin(Stored(admins), writable, email).value.emails)
  {
  }

  /** Dropping an absent email changes nothing; the filter keeps order. */
  lemma {:induction false} RemoveAbsent(admins: seq<string>, email: string)
    requires email !in admins
    ensures RemoveAll(admins, email) == admins
  {
    if |admins| > 0 {
      assert email !in admins[1..];
      RemoveAbsent(admins[1..], email);
      assert [admins[0]] + admins[1..] == admins;
    }
  }

  /** Dropping an email from an appended list drops it from each part. */
  lemma {:induction false} RemoveAllAppend(admins: seq<string>, more: seq<string>, email: string)
    ensures RemoveAll(admins + more, email) == RemoveAll(admins, email) + RemoveAll(more, email)
  {
    if |admins| == 0 {
      assert admins + more == more;
    } else {
      assert (admins + more)[1..] == admins[1..] + more;
      RemoveAllAppend(admins[1..], more, email);
    }
  }

  /** Round trip: adding an absent email and then removing it restores the
      stored list, order included. */
  lemma AddRemoveRoundTrip(admins: seq<string>, email: string)
    requires email !in admins
    ensures AddAdmin(Stored(admins), true, email) == Ok(Stored(admins + [email]))
    ensures RemoveAdmin(Stored(admins + [email]), true, email) == Ok(Stored(admins))
  {
    RemoveAllAppend(admins, [email], email);
    RemoveAbsent(admins, email);
    assert [email][1..] == [];
    assert RemoveAll([email], email) == [];
    assert RemoveAll(admins + [email], email) == admins;
    assert RemoveAdmin(Stored(admins + [email]), true, email) == Ok(Stored(RemoveAll(admins + [email], email)));
  }
}

=== FILE: admin_routes.dfy ===
/** The `/admin` router: both gates in front of every route, item create
    (with the optional image upload) and delete, the open-borrow listing,
    and the allow-list routes. The server state is the store, the admin
    file and the set of files on disk. */
module AdminRoutes {
  import opened Base
  import opened Store
  import opened AdminList
  import opened Gates
  import opened Text
  import opened Uploads
  import opened GoogleAuth

  datatype Server = Server(db: Db, adminFile: AdminFile, files: set<string>)

  /** A file part of a multipart request: the client's name for it and the
      `Date.now()` at which multer names it. */
  datatype Upload = Upload(originalName: string, at: nat)

  datatype Request =
    | ListItems
    | CreateItem(name: Option<string>, description: Option<string>, image: Option<Upload>)
    | DeleteItem(id: Option<int>)    // `Number(req.params.id)`; None when that is not an integer
    | ListBorrows
    | ListAdmins
    | AddAdminRequest(email: string)
    | RemoveAdminRequest(email: string)

  /** A JSON body, or none. `Unhandled` is Express's own answer to an
      exception a handler does not catch. */
  datatype Payload =
    | NoBody
    | Unhandled
    | Error(error: string)
    | Items(items: seq<Item>)
    | Created(item: Item)
    | Rows(rows: seq<Row>)
    | Admins(admins: seq<string>)
    | Message(message: string, list: seq<string>)

  datatype Response = Response(status: int, payload: Payload, server: Server)

  /** `POST /admin/items`: multer stores the upload first; then the row is
      created with `imagePath` set to the public path of the stored file.
      A missing name makes the create throw: 500, with the file left on disk. */
  function CreateItemRoute(st: Server, root: string, name: Option<string>, description: Option<string>,
                           image: Option<Upload>): (r: Response)
    ensures image.None? ==> r.server.files == st.files
    ensures image.Some? ==>
      r.server.files == st.files + {StoredFile(root, UploadName(image.value.originalName, image.value.at))}
    ensures r.server.adminFile == st.adminFile
    ensures r.status == StatusCreated <==> name.Some?
    ensures r.status != StatusCreated ==>
      r.status == StatusServerError && r.payload == Error("Failed to create item") && r.server.db == st.db
    ensures r.status == StatusCreated ==>
      && r.payload.Created?
      && var it := r.payload.item;
      && it.id == st.db.nextItemId && it.name == name.value && it.description == description
      && (image.None? ==> it.imagePath.None?)
      && (image.Some? ==> it.imagePath == Some(ImagePath(UploadName(image.value.originalName, image.value.at))))
      && r.server.db == st.db.(items := st.db.items + [it], nextItemId := st.db.nextItemId + 1)
  {
    var (files, imagePath) := match image
      case None => (st.files, None)
      case Some(u) =>
        var filename := UploadName(u.originalName, u.at);
        (st.files + {StoredFile(root, filename)}, Some(ImagePath(filename)));
    match name
    case None => Response(StatusServerError, Error("Failed to create item"), st.(files := files))
    case Some(n) =>
      var it := Item(st.db.nextItemId, n, description, imagePath);
      Response(StatusCreated, Created(it),
        st.(db := st.db.(items := st.db.items + [it], nextItemId := st.db.nextItemId + 1), files := files))
  }

  /** Whether any borrow, returned or not, refers to the item. */
  predicate Referenced(db: Db, itemId: int)
  {
    exists b :: b in db.borrows && b.itemId == itemId
  }

  /** `DELETE /admin/items/:id`, with the image file located by `imageFile`.
      A found item with a non-empty `imagePath` has that file removed first
      (if present); then the row is deleted. The store refuses the delete
      for a missing row or one any borrow refers to (500), after the image
      is already gone; there is no check of its own for open borrows. */
  function DeleteItemWith(st: Server, id: Option<int>, imageFile: string -> string): (r: Response)
    ensures r.server.adminFile == st.adminFile && r.server.db.borrows == st.db.borrows
    ensures r.status == StatusNoContent <==>
      id.Some? && FindItem(st.db.items, id.value).Some? && !Referenced(st.db, id.value)
    ensures r.status != StatusNoContent ==>
      r.status == StatusServerError && r.payload == Error("Failed to delete item") && r.server.db == st.db
    ensures r.status == StatusNoContent ==>
      && r.payload == NoBody
      && r.server.db == st.db.(items := Filter(st.db.items, (it: Item) => it.id != id.value))
      && (forall it :: it in r.server.db.items <==> it in st.db.items && it.id != id.value)
    ensures HasImage(st.db, id) ==>
      r.server.files == st.files - {imageFile(FindItem(st.db.items, id.value).value.imagePath.value)}
    ensures !HasImage(st.db, id) ==> r.server.files == st.files
  {
    match id
    case None => Response(StatusServerError, Error("Failed to delete item"), st)
    case Some(i) =>
      var found := FindItem(st.db.items, i);
      var files :=
        if found.Some? && found.value.imagePath.Some? && found.value.imagePath.value != ""
        then st.files - {imageFile(found.value.imagePath.value)}
        else st.files;
      if found.None? || Referenced(st.db, i) then
        Response(StatusServerError, Error("Failed to delete item"), st.(files := files))
      else
        Response(StatusNoContent, NoBody,
          st.(db := st.db.(items := Filter(st.db.items, (it: Item) => it.id != i)), files := files))
  }

  /** Whether the item under `id` exists and has a non-empty `imagePath`. */
  predicate HasImage(db: Db, id: Option<int>)
  {
    id.Some? && FindItem(db.items, id.value).Some?
    && var p := FindItem(db.items, id.value).value.imagePath; p.Some? && p.value != ""
  }

  /** The item delete with the image located as the route writes it: the
      absolute `imagePath` itself is the path unlinked. */
  function DeleteItemAsWritten(st: Server, root: string, id: Option<int>): (r: Response)
    ensures HasImage(st.db, id) && StartsWith(FindItem(st.db.items, id.value).value.imagePath.value, "/") ==>
      r.server.files == st.files - {FindItem(st.db.items, id.value).value.imagePath.value}
  {
    DeleteItemWith(st, id, (p: string) => ImageFileAsWritten(root, p))
  }

  /** The item delete with the image located inside the backend directory:
      an item recorded as `/uploads/<name>` loses the file multer stored
      under that name. */
  function DeleteItemRoute(st: Server, root: string, id: Option<int>): (r: Response)
    ensures HasImage(st.db, id) && StartsWith(FindItem(st.db.items, id.value).value.imagePath.value, "/uploads/") ==>
      var p := FindItem(st.db.items, id.value).value.imagePath.value;
      r.server.files == st.files - {StoredFile(root, p[|"/uploads/"|..])}
  {
    var r := DeleteItemWith(st, id, (p: string) => ImageFile(root, p));
    if HasImage(st.db, id) && StartsWith(FindItem(st.db.items, id.value).value.imagePath.value, "/uploads/") then
      var p := FindItem(st.db.items, id.value).value.imagePath.value;
      var name := p[|"/uploads/"|..];
      assert p == ImagePath(name);
      ImageFileFindsUpload(root, name);
      r
    else r
  }

  /** `GET /admin/borrows`: every unreturned borrow with its user and item;
      with unique borrow ids no record is listed twice. */
  function OpenBorrows(db: Db): (r: seq<Row>)
    requires Consistent(db)
    ensures forall row :: row in r ==> row.borrow in db.borrows && !row.borrow.returned
    ensures forall row :: row in r ==> row.user.id == row.borrow.userId && row.item.id == row.borrow.itemId
    ensures forall row :: row in r ==> row.borrow in db.borrows && row == JoinRow(db, row.borrow) && row.user in db.users && row.item in db.items
    ensures forall b :: b in db.borrows ==> ((exists row :: row in r && row.borrow == b) <==> !b.returned)
    ensures BorrowsWf(db.borrows, db.nextBorrowId) ==>
      forall i, j :: 0 <= i < j < |r| ==> r[i].borrow.id != r[j].borrow.id
  {
    var isOpen := (b: Borrow) => !b.returned;
    SelectRows(db, isOpen);
    JoinRows(db, Filter(db.borrows, isOpen))
  }

  /** Under the store invariant the admin listing names each item at most
      once, and it names exactly the items that have an unreturned borrow. */
  lemma {:induction false} OpenBorrowsOnePerItem(db: Db)
    requires Valid(db)
    ensures var r := OpenBorrows(db); forall i, j :: 0 <= i < j < |r| ==> r[i].item.id != r[j].item.id
    ensures forall id :: HasActive(db.borrows, id) <==> exists row :: row in OpenBorrows(db) && row.item.id == id
  {
    var r := OpenBorrows(db);
    forall i, j | 0 <= i < j < |r|
      ensures r[i].item.id != r[j].item.id
    {
      var a, b := r[i].borrow, r[j].borrow;
      assert r[i] in r && r[j] in r;
      var ka :| 0 <= ka < |db.borrows| && db.borrows[ka] == a;
      var kb :| 0 <= kb < |db.borrows| && db.borrows[kb] == b;
      assert ka != kb;
      if ka < kb {
        assert !(db.borrows[ka].itemId == db.borrows[kb].itemId);
      } else {
        assert !(db.borrows[kb].itemId == db.borrows[ka].itemId);
      }
    }
    forall id | HasActive(db.borrows, id)
      ensures exists row :: row in r && row.item.id == id
    {
      var b :| b in db.borrows && b.itemId == id && !b.returned;
      var row :| row in r && row.borrow == b;
    }
  }

  /** `POST /admin/admins`: `addAdmin`, then the list read back, inside one
      `try`. */
  function AddAdminRoute(st: Server, writable: bool, email: string): (r: Response)
    ensures r.server.db == st.db && r.server.files == st.files
    ensures r.status == StatusCreated <==> AddAdmin(st.adminFile, writable, email).Ok?
    ensures r.status != StatusCreated ==>
      r.status == StatusServerError && r.payload == Error("Failed to add admin") && r.server == st
    ensures r.status == StatusCreated ==>
      r.payload.Message? && r.payload.message == "Admin added" && email in r.payload.list
    ensures r.status == StatusCreated ==>
      var f := AddAdmin(st.adminFile, writable, email).value;
      && GetAdminList(f, writable).Ok?
      && r.server.adminFile == GetAdminList(f, writable).value.file
      && r.payload.list == GetAdminList(f, writable).value.admins
  {
    match AddAdmin(st.adminFile, writable, email)
    case Threw => Response(StatusServerError, Error("Failed to add admin"), st)
    case Ok(file) =>
      match GetAdminList(file, writable)
      case Threw => Response(StatusServerError, Error("Failed to add admin"), st)
      case Ok(read) => Response(StatusCreated, Message("Admin added", read.admins), st.(adminFile := read.file))
  }

  /** `DELETE /admin/admins`: `removeAdmin`, then the list read back. */
  function RemoveAdminRoute(st: Server, writable: bool, email: string): (r: Response)
    ensures r.server.db == st.db && r.server.files == st.files
    ensures r.status == StatusOk <==> writable
    ensures r.status != StatusOk ==>
      r.status == StatusServerError && r.payload == Error("Failed to remove admin") && r.server == st
    ensures r.status == StatusOk ==>
      r.payload.Message? && r.payload.message == "Admin removed" && email !in r.payload.list
      && r.server.adminFile == Stored(r.payload.list)
    ensures r.status == StatusOk ==>
      && GetAdminList(st.adminFile, writable).Ok?
      && r.payload.list == RemoveAll(GetAdminList(st.adminFile, writable).value.admins, email)
  {
    match RemoveAdmin(st.adminFile, writable, email)
    case Threw => Response(StatusServerError, Error("Failed to remove admin"), st)
    case Ok(file) =>
      match GetAdminList(file, writable)
      case Threw => Response(StatusServerError, Error("Failed to remove admin"), st)
      case Ok(read) => Response(StatusOk, Message("Admin removed", read.admins), st.(adminFile := read.file))
  }

  /** The router: `ensureAuth` then `ensureAdmin`, then the route. A gate's
      answer leaves everything untouched (multer runs after the gates). The
      item delete is the one the router runs, which resolves `imagePath` as
      written. */
  function Handle(st: Server, session: Option<Principal>, req: Request, root: string, writable: bool): (r: Response)
    requires Consistent(st.db)
    ensures AdminChain(session).Reply? ==>
      r == Response(AdminChain(session).status, Error(AdminChain(session).error), st)
    ensures r.status == StatusUnauthorized || r.status == StatusForbidden <==> AdminChain(session).Reply?
    ensures AdminChain(session).Next? && req.ListItems? ==> r == Response(StatusOk, Items(st.db.items), st)
    ensures AdminChain(session).Next? && req.CreateItem? ==>
      r == CreateItemRoute(st, root, req.name, req.description, req.image)
    ensures AdminChain(session).Next? && req.DeleteItem? ==> r == DeleteItemAsWritten(st, root, req.id)
    ensures AdminChain(session).Next? && req.ListBorrows? ==> r == Response(StatusOk, Rows(OpenBorrows(st.db)), st)
    ensures AdminChain(session).Next? && req.ListAdmins? ==>
      && r.server.db == st.db && r.server.files == st.files
      && (r.status == StatusOk <==> GetAdminList(st.adminFile, writable).Ok?)
      && (r.status == StatusOk ==> r.payload == Admins(GetAdminList(st.adminFile, writable).value.admins))
      && (r.status == StatusOk ==> r.server.adminFile == GetAdminList(st.adminFile, writable).value.file)
      && (r.status != StatusOk ==> r.server == st)
    ensures AdminChain(session).Next? && req.AddAdminRequest? ==> r == AddAdminRoute(st, writable, req.email)
    ensures AdminChain(session).Next? && req.RemoveAdminRequest? ==> r == RemoveAdminRoute(st, writable, req.email)
  {
    match AdminChain(session)
    case Reply(status, error) => Response(status, Error(error), st)
    case Next =>
      match req
      case ListItems => Response(StatusOk, Items(st.db.items), st)
      case CreateItem(name, description, image) => CreateItemRoute(st, root, name, description, image)
      case DeleteItem(id) => DeleteItemAsWritten(st, root, id)
      case ListBorrows => Response(StatusOk, Rows(OpenBorrows(st.db)), st)
      case ListAdmins =>
        (match GetAdminList(st.adminFile, writable)
         case Threw => Response(StatusServerError, Unhandled, st)
         case Ok(read) => Response(StatusOk, Admins(read.admins), st.(adminFile := read.file)))
      case AddAdminRequest(email) => AddAdminRoute(st, writable, email)
      case RemoveAdminRequest(email) => RemoveAdminRoute(st, writable, email)
  }

  // ---- properties ----

  /** Creating an item keeps the store invariant. */
  lemma CreateItemPreservesValid(st: Server, root: string, name: Option<string>, description: Option<string>,
                                 image: Option<Upload>)
    requires Valid(st.db)
    ensures Valid(CreateItemRoute(st, root, name, description, image).server.db)
  {
    var r := CreateItemRoute(st, root, name, description, image);
    if name.Some? {
      var db' := r.server.db;
      forall b | b in db'.borrows
        ensures FindItem(db'.items, b.itemId).Some?
      {
        assert FindItem(st.db.items, b.itemId).value in db'.items;
      }
    }
  }

  /** Every request to the admin router keeps the store invariant. */
  lemma HandlePreservesValid(st: Server, session: Option<Principal>, req: Request, root: string, writable: bool)
    requires Valid(st.db)
    ensures Valid(Handle(st, session, req, root, writable).server.db)
  {
    if AdminChain(session).Next? {
      match req
      case CreateItem(name, description, image) => CreateItemPreservesValid(st, root, name, description, image);
      case DeleteItem(id) => DeleteItemPreservesValid(st, id, (p: string) => ImageFileAsWritten(root, p));
      case _ =>
    }
  }

  /** Deleting an item keeps the store invariant: the refused deletes leave
      the store alone, and an accepted one removes an item nothing refers to. */
  lemma DeleteItemPreservesValid(st: Server, id: Option<int>, imageFile: string -> string)
    requires Valid(st.db)
    ensures Valid(DeleteItemWith(st, id, imageFile).server.db)
  {
    var r := DeleteItemWith(st, id, imageFile);
    if r.status == StatusNoContent {
      var db' := r.server.db;
      var kept := db'.items;
      assert forall x :: x in kept <==> x in st.db.items && x.id != id.value;
      assert ItemsWf(kept, db'.nextItemId) by {
        FilterKeepsItemsWf(st.db.items, (it: Item) => it.id != id.value, db'.nextItemId);
      }
      forall b | b in db'.borrows
        ensures FindItem(kept, b.itemId).Some?
      {
        var it := FindItem(st.db.items, b.itemId).value;
        assert b.itemId != id.value;
        assert it in kept;
      }
    }
  }

  /** Filtering keeps the items' ids below the counter and pairwise distinct. */
  lemma {:induction false} FilterKeepsItemsWf(items: seq<Item>, p: Item -> bool, next: nat)
    requires ItemsWf(items, next)
    ensures ItemsWf(Filter(items, p), next)
  {
    if |items| > 0 {
      assert ItemsWf(items[1..], next);
      FilterKeepsItemsWf(items[1..], p, next);
      var rest := Filter(items[1..], p);
      if p(items[0]) {
        var r := [items[0]] + rest;
        forall i, j | 0 <= i < j < |r|
          ensures r[i].id != r[j].id
        {
          if i == 0 {
            assert r[j] in items[1..];
          }
        }
      }
    }
  }

  /** Deleting the item just created with an upload succeeds, takes away
      the file the image locator names for its `imagePath`, and leaves the
      items as they were before the create. */
  lemma DeleteCreated(st: Server, root: string, name: string, description: Option<string>, u: Upload,
                      imageFile: string -> string)
    requires Valid(st.db)
    ensures var c := CreateItemRoute(st, root, Some(name), description, Some(u));
      var d := DeleteItemWith(c.server, Some(c.payload.item.id), imageFile);
      && c.status == StatusCreated
      && d.status == StatusNoContent
      && d.server.files == c.server.files - {imageFile(ImagePath(UploadName(u.originalName, u.at)))}
      && d.server.db.items == st.db.items
  {
    var c := CreateItemRoute(st, root, Some(name), description, Some(u));
    var it := c.payload.item;
    NotReferencedFresh(st.db);
    assert !Referenced(c.server.db, it.id);
    assert FindItem(c.server.db.items, it.id) == Some(it) by {
      FindItemFresh(st.db.items, st.db.nextItemId, it);
    }
    var keep := (x: Item) => x.id != it.id;
    assert Filter(c.server.db.items, keep) == st.db.items by {
      FilterAppend(st.db.items, [it], keep);
      FilterKeepsAll(st.db.items, keep);
      assert Filter([it], keep) == [];
    }
  }

  /** With the corrected path, deleting a freshly created item removes the
      uploaded image from disk. */
  lemma CreateThenDeleteRemovesImage(st: Server, root: string, name: string, description: Option<string>,
                                     u: Upload)
    requires Valid(st.db)
    ensures var c := CreateItemRoute(st, root, Some(name), description, Some(u));
      var d := DeleteItemRoute(c.server, root, Some(c.payload.item.id));
      && c.status == StatusCreated
      && d.status == StatusNoContent
      && StoredFile(root, UploadName(u.originalName, u.at)) in c.server.files
      && StoredFile(root, UploadName(u.originalName, u.at)) !in d.server.files
      && d.server.db.items == st.db.items
  {
    var filename := UploadName(u.originalName, u.at);
    DeleteCreated(st, root, name, description, u, (p: string) => ImageFile(root, p));
    ImageFileFindsUpload(root, filename);
  }

  /** As written, the same delete leaves the uploaded image on disk. */
  lemma CreateThenDeleteAsWrittenKeepsImage(st: Server, root: string, name: string, description: Option<string>,
                                            u: Upload)
    requires Valid(st.db)
    requires root != ""
    ensures var c := CreateItemRoute(st, root, Some(name), description, Some(u));
      var d := DeleteItemAsWritten(c.server, root, Some(c.payload.item.id));
      && d.status == StatusNoContent
      && StoredFile(root, UploadName(u.originalName, u.at)) in d.server.files
  {
    var filename := UploadName(u.originalName, u.at);
    DeleteCreated(st, root, name, description, u, (p: string) => ImageFileAsWritten(root, p));
    AsWrittenMissesUpload(root, filename);
  }

  /** No borrow refers to the id the item counter hands out next. */
  lemma NotReferencedFresh(db: Db)
    requires Valid(db)
    ensures !Referenced(db, db.nextItemId)
  {
    forall b | b in db.borrows
      ensures b.itemId != db.nextItemId
    {
      var it := FindItem(db.items, b.itemId).value;
      var k :| 0 <= k < |db.items| && db.items[k] == it;
    }
  }

  /** The appended item is the one found under the fresh id. */
  lemma {:induction false} FindItemFresh(items: seq<Item>, next: nat, it: Item)
    requires ItemsWf(items, next)
    requires it.id == next
    ensures FindItem(items + [it], next) == Some(it)
  {
    if |items| == 0 {
      assert items + [it] == [it];
    } else {
      assert items[0].id < next;
      assert (items + [it])[1..] == items[1..] + [it];
      assert ItemsWf(items[1..], next);
      FindItemFresh(items[1..], next, it);
    }
  }

  /** A user restored from the session never reaches an admin route: the
      request is answered 401 or 403 and nothing changes. */
  lemma SessionUsersLockedOut(st: Server, id: nat, req: Request, root: string, writable: bool)
    requires Consistent(st.db)
    ensures var r := Handle(st, DeserializeUser(st.db, id), req, root, writable);
      (r.status == StatusUnauthorized || r.status == StatusForbidden) && r.server == st
  {
  }
}

=== FILE: api_client.dfy ===
/** The browser-side request helpers: the cache-busting query parameter
    the request interceptor appends, and the retry policy of
    `apiWithRetry`. The server's answer to each attempt is the parameter
    `answers` (attempt number to success). */
module ApiClient {
  import opened Base
  import opened Text

  /** The URL as the template literal renders it: an unset URL is "undefined". */
  function UrlText(url: Option<string>): string
  {
    if url.Some? then url.value else "undefined"
  }

  /** The request interceptor: `_ts=<ms>` joined with '&' when the URL
      already has a '?', with '?' otherwise. */
  function WithTimestamp(url: Option<string>, now: int): (r: string)
    ensures StartsWith(r, UrlText(url))
    ensures '?' in r
    ensures EndsWith(r, "_ts=" + IntToDecimal(now))
  {
    var u := UrlText(url);
    var sep := if '?' in u then '&' else '?';
    var suffix := "_ts=" + IntToDecimal(now);
    var tail := [sep] + suffix;
    StartsWithConcat(u, tail);
    assert (u + tail)[|u| + 1..] == suffix by {
      assert (u + tail)[|u|..] == tail;
      assert tail[1..] == suffix;
    }
    assert (u + tail)[|u|] == sep;
    assert u + [sep] + "_ts=" + IntToDecimal(now) == u + tail;
    u + tail
  }

  /** Reads a stamped URL back: the text before the separator and the
      stamp, or None when the URL does not end in such a parameter. */
  function SplitTimestamp(r: string): (p: Option<(string, int)>)
  {
    match LastIndexOf(r, '=')
    case None => None
    case Some(eq) =>
      var value := r[eq + 1..];
      if eq < 4 || r[eq - 3..eq] != "_ts" || !(r[eq - 4] == '?' || r[eq - 4] == '&') then None
      else if |value| == 0 || !(if value[0] == '-' then AllDigits(value[1..]) else AllDigits(value)) then None
      else if value[0] == '-' && |value| == 1 then None
      else Some((r[..eq - 4], IntValue(value)))
  }

  /** A URL followed by a separator and a stamp reads back as that URL
      and that stamp. */
  lemma SplitStamped(u: string, sep: char, now: int)
    requires sep == '?' || sep == '&'
    ensures SplitTimestamp(u + [sep] + "_ts=" + IntToDecimal(now)) == Some((u, now))
  {
    var digits := IntToDecimal(now);
    var head := u + [sep] + "_ts";
    var r := head + ['='] + digits;
    assert u + [sep] + "_ts=" + digits == r;
    assert '=' !in digits by {
      if '=' in digits {
        IntToDecimalChars(now, '=');
      }
    }
    LastIndexAfter(head, '=', digits);
    var eq := |head|;
    assert r[eq + 1..] == digits;
    assert r[eq - 3..eq] == "_ts";
    assert r[eq - 4] == sep;
    assert r[..eq - 4] == u;
    IntRoundTrip(now);
  }

  /** Round trip: the URL and the stamp are recovered from the stamped URL,
      and the separator is '&' exactly when the URL had a query already. */
  lemma TimestampRoundTrip(url: Option<string>, now: int)
    ensures SplitTimestamp(WithTimestamp(url, now)) == Some((UrlText(url), now))
    ensures var u := UrlText(url);
      WithTimestamp(url, now)[|u|] == (if '?' in u then '&' else '?')
  {
    var u := UrlText(url);
    var sep := if '?' in u then '&' else '?';
    assert WithTimestamp(url, now) == u + [sep] + "_ts=" + IntToDecimal(now);
    SplitStamped(u, sep, now);
  }

  /** The methods `apiWithRetry` knows; any other string throws in the `try`. */
  predicate Supported(verb: string)
  {
    verb == "get" || verb == "post" || verb == "put" || verb == "delete"
  }

  function Pow2(n: nat): (r: nat)
    ensures r >= 1
  {
    if n == 0 then 1 else 2 * Pow2(n - 1)
  }

  /** Attempt number `k` returns a response: the method is one the helper
      knows and the server answered. */
  predicate AttemptSucceeds(verb: string, answers: nat -> bool, k: nat)
  {
    Supported(verb) && answers(k)
  }

  /** The error an attempt throws. */
  datatype Failure = Unsupported(verb: string) | RequestFailed(attempt: nat)

  datatype Result = Succeeded(attempt: nat) | Failed(error: Failure)

  /** One call of `apiWithRetry`: the waits between attempts, how many
      HTTP requests went out, and how the call ended. */
  datatype Trace = Trace(delays: seq<int>, requests: nat, result: Result)

  /** The attempts from number `first` on, with `retries` retries left and
      `delay` the next wait. */
  function RetryFrom(verb: string, answers: nat -> bool, first: nat, retries: int, delay: int): (t: Trace)
    ensures |t.delays| <= Max(retries, 0)
    ensures forall j :: 0 <= j < |t.delays| ==> t.delays[j] == delay * Pow2(j)
    ensures t.requests == (if Supported(verb) then |t.delays| + 1 else 0)
    ensures t.result.Succeeded? <==>
      exists k :: first <= k <= first + Max(retries, 0) && AttemptSucceeds(verb, answers, k)
    ensures t.result.Succeeded? ==>
      && t.result.attempt == first + |t.delays|
      && AttemptSucceeds(verb, answers, t.result.attempt)
      && forall k :: first <= k < t.result.attempt ==> !AttemptSucceeds(verb, answers, k)
    ensures t.result.Failed? ==>
      && |t.delays| == Max(retries, 0)
      && (forall k :: first <= k <= first + |t.delays| ==> !AttemptSucceeds(verb, answers, k))
      && t.result.error == (if Supported(verb) then RequestFailed(first + |t.delays|) else Unsupported(verb))
    decreases Max(retries, 0)
  {
    if AttemptSucceeds(verb, answers, first) then
      Trace([], 1, Succeeded(first))
    else if retries > 0 then
      var rest := RetryFrom(verb, answers, first + 1, retries - 1, delay * 2);
      DoubledDelays(delay, rest.delays);
      Trace([delay] + rest.delays, if Supported(verb) then rest.requests + 1 else 0, rest.result)
    else
      Trace([], if Supported(verb) then 1 else 0,
        Failed(if Supported(verb) then RequestFailed(first) else Unsupported(verb)))
  }

  /** The waits of the later attempts, doubled from `delay * 2`, are the
      waits doubled from `delay` one step on. */
  lemma DoubledDelays(delay: int, later: seq<int>)
    requires forall j :: 0 <= j < |later| ==> later[j] == delay * 2 * Pow2(j)
    ensures forall j :: 0 <= j < |[delay] + later| ==> ([delay] + later)[j] == delay * Pow2(j)
  {
    forall j | 0 <= j < |[delay] + later|
      ensures ([delay] + later)[j] == delay * Pow2(j)
    {
      if j > 0 {
        assert Pow2(j) == 2 * Pow2(j - 1);
        assert ([delay] + later)[j] == later[j - 1];
      }
    }
  }

  /** `apiWithRetry(method, url, data, retries, retryDelay)`: at most
      `retries + 1` attempts, the first success returned at once, the
      last error rethrown. */
  function ApiWithRetry(verb: string, answers: nat -> bool, retries: int, retryDelay: int): (t: Trace)
    ensures |t.delays| <= Max(retries, 0)
    ensures t.requests == (if Supported(verb) then |t.delays| + 1 else 0)
    ensures retries <= 0 ==> t.delays == [] && (t.result.Succeeded? ==> t.result.attempt == 0)
    ensures forall j :: 0 <= j < |t.delays| ==> t.delays[j] == retryDelay * Pow2(j)
    ensures t.result.Succeeded? ==>
      && t.result.attempt == |t.delays|
      && AttemptSucceeds(verb, answers, t.result.attempt)
      && forall k :: 0 <= k < t.result.attempt ==> !AttemptSucceeds(verb, answers, k)
    ensures t.result.Failed? ==>
      && |t.delays| == Max(retries, 0)
      && (forall k :: 0 <= k <= |t.delays| ==> !AttemptSucceeds(verb, answers, k))
      && t.result.error == (if Supported(verb) then RequestFailed(|t.delays|) else Unsupported(verb))
  {
    RetryFrom(verb, answers, 0, retries, retryDelay)
  }

  /** More retries never turn a success into a failure, and they do not
      change which attempt succeeds. */
  lemma {:induction false} MoreRetriesKeepSuccess(verb: string, answers: nat -> bool, first: nat,
                                                  r1: int, r2: int, delay: int)
    requires r1 <= r2
    requires RetryFrom(verb, answers, first, r1, delay).result.Succeeded?
    ensures RetryFrom(verb, answers, first, r2, delay) == RetryFrom(verb, answers, first, r1, delay)
    decreases Max(r1, 0)
  {
    if !AttemptSucceeds(verb, answers, first) {
      MoreRetriesKeepSuccess(verb, answers, first + 1, r1 - 1, r2 - 1, delay * 2);
    }
  }

  /** The default policy: two retries after one second and two seconds. */
  lemma DefaultPolicy(verb: string, answers: nat -> bool)
    requires Supported(verb)
    requires forall j :: !answers(j)
    ensures ApiWithRetry(verb, answers, 2, 1000) == Trace([1000, 2000], 3, Failed(RequestFailed(2)))
  {
    var t := ApiWithRetry(verb, answers, 2, 1000);
    assert |t.delays| == 2;
    assert t.delays[0] == 1000 * Pow2(0);
    assert t.delays[1] == 1000 * Pow2(1);
  }
}

=== FILE: base.dfy ===
/** Small shared vocabulary: optional values, calls that may throw, HTTP
    statuses, and an order-preserving filter over sequences. */
module Base {

  /** A value that may be absent (JavaScript `undefined` / `null`). */
  datatype Option<+T> = None | Some(value: T)

  /** The outcome of a synchronous call that either returns or throws. */
  datatype Outcome<+T> = Ok(value: T) | Threw

  // HTTP statuses the routes answer with
  const StatusOk := 200
  const StatusCreated := 201
  const StatusNoContent := 204
  const StatusBadRequest := 400
  const StatusUnauthorized := 401
  const StatusForbidden := 403
  const StatusNotFound := 404
  const StatusConflict := 409
  const StatusServerError := 500

  /** The elements of `s` satisfying `p`, in their original order
      (JavaScript `Array.prototype.filter`, or a `findMany` with a `where`). */
  function Filter<T(!new)>(s: seq<T>, p: T -> bool): (r: seq<T>)
    ensures |r| <= |s|
    ensures forall x :: x in r <==> x in s && p(x)
    ensures forall i :: 0 <= i < |r| ==> p(r[i])
  {
    if |s| == 0 then []
    else if p(s[0]) then [s[0]] + Filter(s[1..], p)
    else Filter(s[1..], p)
  }

  /** A filter keeps every element it selects as often as it occurs, and
      no other. */
  lemma {:induction false} FilterCounts<T(!new)>(s: seq<T>, p: T -> bool)
    ensures forall x :: multiset(Filter(s, p))[x] == (if p(x) then multiset(s)[x] else 0)
  {
    if |s| > 0 {
      assert s == [s[0]] + s[1..];
      FilterCounts(s[1..], p);
    }
  }

  /** Keys pairwise different along a sequence. */
  predicate KeysDistinct<T, K(==)>(s: seq<T>, key: T -> K)
  {
    forall i, j :: 0 <= i < j < |s| ==> key(s[i]) != key(s[j])
  }

  /** Elements that a key tells apart stay told apart after a filter. */
  lemma {:induction false} FilterKeepsKeysDistinct<T(!new), K>(s: seq<T>, p: T -> bool, key: T -> K)
    requires KeysDistinct(s, key)
    ensures KeysDistinct(Filter(s, p), key)
  {
    if |s| > 0 {
      var tail := s[1..];
      forall i, j | 0 <= i < j < |tail|
        ensures key(tail[i]) != key(tail[j])
      {
        assert tail[i] == s[i + 1] && tail[j] == s[j + 1];
      }
      FilterKeepsKeysDistinct(tail, p, key);
      var rest := Filter(tail, p);
      if p(s[0]) {
        var r := [s[0]] + rest;
        forall j | 0 < j < |r|
          ensures key(r[0]) != key(r[j])
        {
          assert r[j] == rest[j - 1];
          assert r[j] in tail;
          var k :| 0 <= k < |tail| && tail[k] == r[j];
          assert s[k + 1] == r[j];
        }
        forall i, j | 0 <= i < j < |r|
          ensures key(r[i]) != key(r[j])
        {
          if i > 0 {
            assert r[i] == rest[i - 1] && r[j] == rest[j - 1];
          }
        }
        assert KeysDistinct(r, key);
      }
    }
  }

  /** Filtering an appended sequence filters each part. */
  lemma {:induction false} FilterAppend<T(!new)>(s: seq<T>, t: seq<T>, p: T -> bool)
    ensures Filter(s + t, p) == Filter(s, p) + Filter(t, p)
  {
    if |s| == 0 {
      assert s + t == t;
    } else {
      assert (s + t)[1..] == s[1..] + t;
      FilterAppend(s[1..], t, p);
    }
  }

  /** A filter that keeps every element is the identity. */
  lemma {:induction false} FilterKeepsAll<T(!new)>(s: seq<T>, p: T -> bool)
    requires forall x :: x in s ==> p(x)
    ensures Filter(s, p) == s
  {
    if |s| > 0 {
      assert forall x :: x in s[1..] ==> x in s;
      FilterKeepsAll(s[1..], p);
      assert [s[0]] + s[1..] == s;
    }
  }

  function Max(a: int, b: int): int
  {
    if a < b then b else a
  }
}

=== FILE: borrow_routes.dfy ===
/** The borrow router: create a borrow, return it, and the two read views.
    Requests are handled one at a time, each to completion. */
module BorrowRoutes {
  import opened Base
  import opened Clock
  import opened Store
  import opened AdminList
  import opened Mailer

  /** The JSON body of `POST /borrow`. `itemId` is the value after
      `Number(itemId)`; `None` is an absent field. `dueDate` is the raw string. */
  datatype CreateRequest = CreateRequest(itemId: Option<int>, dueDate: Option<string>)

  datatype CreateReply = CreateReply(status: int, db: Db, created: Option<Borrow>)

  datatype ReturnReply = ReturnReply(
    status: int,
    db: Db,
    adminFile: AdminFile,
    sent: Option<Sent>,
    updated: Option<Borrow>)

  /** `!itemId || !dueDate`: an absent or zero item id, or an absent or
      empty due date. */
  predicate MissingField(req: CreateRequest)
  {
    || req.itemId.None? || req.itemId.value == 0
    || req.dueDate.None? || req.dueDate.value == ""
  }

  /** `POST /borrow`. `parseDate` stands for `new Date(dueDate)`: the
      local instant the string denotes, or `None` for an Invalid Date, which
      the store then refuses. No date-range check is made and no email is sent. */
  function CreateBorrow(db: Db, callerId: nat, req: CreateRequest, now: int,
                        parseDate: string -> Option<int>): (r: CreateReply)
    ensures r.status in {StatusCreated, StatusBadRequest, StatusConflict, StatusServerError}
    ensures r.status == StatusBadRequest <==> MissingField(req)
    ensures r.status == StatusConflict <==> !MissingField(req) && HasActive(db.borrows, req.itemId.value)
    ensures r.status == StatusServerError <==>
      && !MissingField(req) && !HasActive(db.borrows, req.itemId.value)
      && (|| parseDate(req.dueDate.value).None?
          || FindItem(db.items, req.itemId.value).None?
          || FindUser(db.users, callerId).None?)
    ensures r.status != StatusCreated ==> r.db == db && r.created.None?
    ensures r.status == StatusCreated ==>
      && r.created.Some?
      && var b := r.created.value;
      && r.db == db.(borrows := db.borrows + [b], nextBorrowId := db.nextBorrowId + 1)
      && b.id == db.nextBorrowId
      && b.userId == callerId
      && b.itemId == req.itemId.value
      && b.borrowedAt == now
      && !b.returned && b.returnedAt.None?
      && DayOf(b.dueDate) == DayOf(parseDate(req.dueDate.value).value)
      && b.dueDate + 1 == StartOfDay(b.dueDate) + DayMs
  {
    if MissingField(req) then CreateReply(StatusBadRequest, db, None)
    else if HasActive(db.borrows, req.itemId.value) then CreateReply(StatusConflict, db, None)
    else
      match parseDate(req.dueDate.value)
      case None => CreateReply(StatusServerError, db, None)
      case Some(instant) =>
        if FindItem(db.items, req.itemId.value).None? || FindUser(db.users, callerId).None? then
          CreateReply(StatusServerError, db, None)
        else
          var b := Borrow(db.nextBorrowId, callerId, req.itemId.value, now, EndOfDay(instant), false, None);
          CreateReply(StatusCreated, db.(borrows := db.borrows + [b], nextBorrowId := db.nextBorrowId + 1), Some(b))
  }

  /** `POST /borrow/return/:id`. `borrowId` is `Number(req.params.id)`;
      `None` stands for a value that is not an integer (NaN, a fraction),
      which the store rejects. The caller is not compared with the
      borrower. The update is written before the admin list is read, so a
      throwing `getAdminList` answers 500 with the record already returned.
      `transportOk` is whether the mail transport accepts the notice. */
  function ReturnBorrow(db: Db, callerId: nat, borrowId: Option<int>, now: int,
                        adminFile: AdminFile, writable: bool, from: Option<string>,
                        transportOk: bool): (r: ReturnReply)
    requires Consistent(db)
    ensures r.status in {StatusOk, StatusNotFound, StatusServerError}
    ensures borrowId.None? <==> r.status == StatusServerError && r.updated.None?
    ensures borrowId.None? ==> r.db == db && r.adminFile == adminFile && r.sent.None?
    ensures r.status == StatusNotFound <==>
      borrowId.Some? &&
      (FindBorrow(db.borrows, borrowId.value).None? || db.borrows[FindBorrow(db.borrows, borrowId.value).value].returned)
    ensures r.status == StatusNotFound ==> r.db == db && r.adminFile == adminFile && r.sent.None?
    ensures r.updated.Some? ==>
      && borrowId.Some? && r.status != StatusNotFound
      && var i := FindBorrow(db.borrows, borrowId.value).value;
      && r.updated == Some(db.borrows[i].(returned := true, returnedAt := Some(now)))
      && r.db == db.(borrows := db.borrows[i := r.updated.value])
    ensures r.status == StatusServerError && borrowId.Some? <==>
      r.updated.Some? && adminFile.Absent? && !writable
    ensures r.status == StatusServerError ==> r.sent.None? && r.adminFile == adminFile
    ensures r.status == StatusOk ==>
      && r.updated.Some?
      && var b := db.borrows[FindBorrow(db.borrows, borrowId.value).value];
      && var row := JoinRow(db, b);
      && var read := GetAdminList(adminFile, writable).value;
      && r.adminFile == read.file
      && r.sent == Some(Send(ReturnNoticeMail(from, DisplayName(row.user), row.item.name, read.admins), transportOk))
  {
    match borrowId
    case None => ReturnReply(StatusServerError, db, adminFile, None, None)
    case Some(id) =>
      match FindBorrow(db.borrows, id)
      case None => ReturnReply(StatusNotFound, db, adminFile, None, None)
      case Some(i) =>
        var record := db.borrows[i];
        if record.returned then ReturnReply(StatusNotFound, db, adminFile, None, None)
        else
          var updated := record.(returned := true, returnedAt := Some(now));
          var db' := db.(borrows := db.borrows[i := updated]);
          var row := JoinRow(db, record);
          match GetAdminList(adminFile, writable)
          case Threw => ReturnReply(StatusServerError, db', adminFile, None, Some(updated))
          case Ok(read) =>
            var notice := ReturnNoticeMail(from, DisplayName(row.user), row.item.name, read.admins);
            ReturnReply(StatusOk, db', read.file, Some(Send(notice, transportOk)), Some(updated))
  }

  /** `GET /borrow/items`: the items with no unreturned borrow, each as
      often as it is stored. */
  function AvailableItems(db: Db): (r: seq<Item>)
    ensures forall it :: it in r <==> it in db.items && !HasActive(db.borrows, it.id)
    ensures forall it :: multiset(r)[it] == (if HasActive(db.borrows, it.id) then 0 else multiset(db.items)[it])
  {
    var free := (it: Item) => !HasActive(db.borrows, it.id);
    FilterCounts(db.items, free);
    Filter(db.items, free)
  }

  /** `GET /borrow/my`: the caller's unreturned borrows, each with its item
      and nothing else; with unique borrow ids no record is listed twice. */
  function MyBorrows(db: Db, callerId: nat): (r: seq<ItemRow>)
    requires Consistent(db)
    ensures forall row :: row in r ==> row.borrow in db.borrows && row.item == FindItem(db.items, row.borrow.itemId).value
    ensures forall row :: row in r ==> row.item in db.items && row.item.id == row.borrow.itemId
    ensures forall b :: b in db.borrows ==>
      ((exists row :: row in r && row.borrow == b) <==> b.userId == callerId && !b.returned)
    ensures BorrowsWf(db.borrows, db.nextBorrowId) ==>
      forall i, j :: 0 <= i < j < |r| ==> r[i].borrow.id != r[j].borrow.id
  {
    var isMine := (b: Borrow) => b.userId == callerId && !b.returned;
    SelectItemRows(db, isMine);
    JoinItems(db, Filter(db.borrows, isMine))
  }

  // ---- properties relating several calls ----

  /** A successful create keeps the store invariant, in particular at most
      one unreturned borrow per item. */
  lemma CreatePreservesValid(db: Db, callerId: nat, req: CreateRequest, now: int, parseDate: string -> Option<int>)
    requires Valid(db)
    ensures Valid(CreateBorrow(db, callerId, req, now, parseDate).db)
  {
    var r := CreateBorrow(db, callerId, req, now, parseDate);
    if r.status == StatusCreated {
      var b := r.created.value;
      var bs := r.db.borrows;
      assert bs == db.borrows + [b];
      assert !HasActive(db.borrows, b.itemId);
      forall i, j | 0 <= i < j < |bs| && bs[i].itemId == bs[j].itemId
        ensures bs[i].returned || bs[j].returned
      {
        if j == |bs| - 1 {
          assert bs[i] in db.borrows;
        }
      }
      forall x | x in bs
        ensures FindUser(r.db.users, x.userId).Some? && FindItem(r.db.items, x.itemId).Some?
      {
        if x != b {
          assert x in db.borrows;
        }
      }
    }
  }

  /** Marking one unreturned record returned keeps the store invariant:
      ids and relations are untouched and one fewer borrow is open. */
  lemma MarkReturnedPreservesValid(db: Db, i: nat, now: int)
    requires Valid(db)
    requires i < |db.borrows|
    ensures Valid(db.(borrows := db.borrows[i := db.borrows[i].(returned := true, returnedAt := Some(now))]))
  {
    var bs := db.borrows[i := db.borrows[i].(returned := true, returnedAt := Some(now))];
    var db' := db.(borrows := bs);
    assert forall k :: 0 <= k < |bs| ==> bs[k].id == db.borrows[k].id;
    assert BorrowsWf(bs, db.nextBorrowId);
    forall x | x in bs
      ensures FindUser(db'.users, x.userId).Some? && FindItem(db'.items, x.itemId).Some?
    {
      var k :| 0 <= k < |bs| && bs[k] == x;
      assert db.borrows[k] in db.borrows;
      assert x.userId == db.borrows[k].userId && x.itemId == db.borrows[k].itemId;
    }
    assert AtMostOneActive(bs) by {
      forall k, m | 0 <= k < m < |bs| && bs[k].itemId == bs[m].itemId
        ensures bs[k].returned || bs[m].returned
      {
        assert db.borrows[k].itemId == db.borrows[m].itemId;
      }
    }
  }

  /** A return keeps the store invariant. */
  lemma ReturnPreservesValid(db: Db, callerId: nat, borrowId: Option<int>, now: int,
                             adminFile: AdminFile, writable: bool, from: Option<string>, transportOk: bool)
    requires Valid(db)
    ensures Valid(ReturnBorrow(db, callerId, borrowId, now, adminFile, writable, from, transportOk).db)
  {
    var r := ReturnBorrow(db, callerId, borrowId, now, adminFile, writable, from, transportOk);
    if r.updated.Some? {
      MarkReturnedPreservesValid(db, FindBorrow(db.borrows, borrowId.value).value, now);
    }
  }

  /** Returning touches only the named record: every other borrow is as it was. */
  lemma ReturnChangesOnlyThatRecord(db: Db, callerId: nat, borrowId: Option<int>, now: int,
                                    adminFile: AdminFile, writable: bool, from: Option<string>, transportOk: bool)
    requires Consistent(db)
    ensures var r := ReturnBorrow(db, callerId, borrowId, now, adminFile, writable, from, transportOk);
      && |r.db.borrows| == |db.borrows|
      && r.db.users == db.users && r.db.items == db.items
      && forall k :: 0 <= k < |db.borrows| && (borrowId.None? || db.borrows[k].id != borrowId.value) ==>
           r.db.borrows[k] == db.borrows[k]
  {
  }

  /** Any caller may return any borrow: the reply does not depend on who asks. */
  lemma ReturnIgnoresCaller(db: Db, c1: nat, c2: nat, borrowId: Option<int>, now: int,
                            adminFile: AdminFile, writable: bool, from: Option<string>, transportOk: bool)
    requires Consistent(db)
    ensures ReturnBorrow(db, c1, borrowId, now, adminFile, writable, from, transportOk)
         == ReturnBorrow(db, c2, borrowId, now, adminFile, writable, from, transportOk)
  {
  }

  /** Sends never reject: whether the transport accepts the return notice
      changes neither the status, nor the store, nor the admin file, nor
      the message handed over; it only decides whether an error is logged. */
  lemma ReturnIgnoresTransport(db: Db, callerId: nat, borrowId: Option<int>, now: int,
                               adminFile: AdminFile, writable: bool, from: Option<string>)
    requires Consistent(db)
    ensures var r1 := ReturnBorrow(db, callerId, borrowId, now, adminFile, writable, from, true);
      var r2 := ReturnBorrow(db, callerId, borrowId, now, adminFile, writable, from, false);
      && r1.status == r2.status && r1.db == r2.db && r1.adminFile == r2.adminFile
      && r1.updated == r2.updated
      && (r1.sent.Some? <==> r2.sent.Some?)
      && (r1.sent.Some? ==>
            && r1.sent.value.mail == r2.sent.value.mail
            && r1.sent.value.settled == Resolved && r2.sent.value.settled == Resolved
            && !r1.sent.value.logged && r2.sent.value.logged)
  {
  }

  /** Returning the same id twice: the first call goes through (200, or
      500 after the update when the admin list cannot be read) and the
      second answers 404 and changes nothing. */
  lemma ReturnTwice(db: Db, callerId: nat, borrowId: int, t1: int, t2: int,
                    adminFile: AdminFile, writable: bool, from: Option<string>, transportOk: bool)
    requires Valid(db)
    requires FindBorrow(db.borrows, borrowId).Some?
    requires !db.borrows[FindBorrow(db.borrows, borrowId).value].returned
    ensures var r1 := ReturnBorrow(db, callerId, Some(borrowId), t1, adminFile, writable, from, transportOk);
      && r1.status != StatusNotFound
      && Consistent(r1.db)
      && var r2 := ReturnBorrow(r1.db, callerId, Some(borrowId), t2, r1.adminFile, writable, from, transportOk);
      && r2.status == StatusNotFound && r2.db == r1.db
  {
    var r1 := ReturnBorrow(db, callerId, Some(borrowId), t1, adminFile, writable, from, transportOk);
    ReturnPreservesValid(db, callerId, Some(borrowId), t1, adminFile, writable, from, transportOk);
    var i := FindBorrow(db.borrows, borrowId).value;
    assert r1.db.borrows[i].id == borrowId;
    // ids are unique, so the second lookup finds the same position
    var j := FindBorrow(r1.db.borrows, borrowId).value;
    assert r1.db.borrows[j].id == r1.db.borrows[i].id;
  }

  /** A successful create takes the item out of the available view and puts
      the record into the caller's view. */
  lemma CreateLeavesAvailable(db: Db, callerId: nat, req: CreateRequest, now: int, parseDate: string -> Option<int>)
    requires Valid(db)
    requires CreateBorrow(db, callerId, req, now, parseDate).status == StatusCreated
    ensures var r := CreateBorrow(db, callerId, req, now, parseDate);
      && (forall it :: it in AvailableItems(r.db) ==> it.id != req.itemId.value)
      && (exists row :: row in MyBorrows(r.db, callerId) && row.borrow == r.created.value)
  {
    var r := CreateBorrow(db, callerId, req, now, parseDate);
    CreatePreservesValid(db, callerId, req, now, parseDate);
    var b := r.created.value;
    assert b in r.db.borrows;
    assert HasActive(r.db.borrows, req.itemId.value);
    var mine := MyBorrows(r.db, callerId);
    assert b.userId == callerId && !b.returned;
    assert exists row :: row in mine && row.borrow == b;
  }

  /** Returning an item's unreturned borrow puts the item back into the
      available view: under the invariant it was the item's only one. */
  lemma ReturnRestoresAvailable(db: Db, callerId: nat, borrowId: int, now: int,
                                adminFile: AdminFile, writable: bool, from: Option<string>, transportOk: bool, it: Item)
    requires Valid(db)
    requires FindBorrow(db.borrows, borrowId).Some?
    requires var b := db.borrows[FindBorrow(db.borrows, borrowId).value]; !b.returned && it in db.items && it.id == b.itemId
    ensures it in AvailableItems(ReturnBorrow(db, callerId, Some(borrowId), now, adminFile, writable, from, transportOk).db)
  {
    var r := ReturnBorrow(db, callerId, Some(borrowId), now, adminFile, writable, from, transportOk);
    var i := FindBorrow(db.borrows, borrowId).value;
    var bs := r.db.borrows;
    assert bs == db.borrows[i := bs[i]] && bs[i].returned;
    forall k | 0 <= k < |bs| && bs[k].itemId == it.id
      ensures bs[k].returned
    {
      if k < i {
        assert db.borrows[k].itemId == db.borrows[i].itemId;
      } else if k > i {
        assert db.borrows[i].itemId == db.borrows[k].itemId;
      }
    }
    assert !HasActive(bs, it.id);
    assert r.db.items == db.items;
  }

  /** One request to the borrow router. */
  datatype Op =
    | CreateOp(callerId: nat, req: CreateRequest, now: int)
    | ReturnOp(callerId: nat, borrowId: Option<int>, now: int)

  /** One request's effect on the store and the admin file. */
  function Step(db: Db, adminFile: AdminFile, op: Op, parseDate: string -> Option<int>,
                writable: bool, from: Option<string>, transportOk: bool): (r: (Db, AdminFile))
    requires Valid(db)
    ensures Valid(r.0)
  {
    match op
    case CreateOp(c, req, now) =>
      CreatePreservesValid(db, c, req, now, parseDate);
      (CreateBorrow(db, c, req, now, parseDate).db, adminFile)
    case ReturnOp(c, id, now) =>
      ReturnPreservesValid(db, c, id, now, adminFile, writable, from, transportOk);
      var r := ReturnBorrow(db, c, id, now, adminFile, writable, from, transportOk);
      (r.db, r.adminFile)
  }

  /** A sequence of requests handled one after another: the store after
      each one still has at most one unreturned borrow per item. */
  function Run(db: Db, adminFile: AdminFile, ops: seq<Op>, parseDate: string -> Option<int>,
               writable: bool, from: Option<string>, transportOk: bool): (r: Db)
    requires Valid(db)
    ensures Valid(r)
    ensures AtMostOneActive(r.borrows)
    decreases |ops|
  {
    if |ops| == 0 then db
    else
      var next := Step(db, adminFile, ops[0], parseDate, writable, from, transportOk);
      Run(next.0, next.1, ops[1..], parseDate, writable, from, transportOk)
  }
}

=== FILE: clock.dfy ===
/** Local wall-clock time as integer milliseconds, with days of uniform
    length. Day `d` covers the instants `d * DayMs .. d * DayMs + DayMs - 1`;
    Dafny's `/` floors for a positive divisor, so instants before the epoch
    fall on the right day as well. */
module Clock {

  const DayMs: int := 86_400_000

  /** The day number an instant falls on. */
  function DayOf(t: int): int
  {
    t / DayMs
  }

  /** `setHours(0, 0, 0, 0)`: midnight at the start of `t`'s day. */
  function StartOfDay(t: int): (r: int)
    ensures r % DayMs == 0
    ensures r <= t < r + DayMs
    ensures DayOf(r) == DayOf(t)
  {
    DayOf(t) * DayMs
  }

  /** `setHours(23, 59, 59, 999)`: the last millisecond of `t`'s day. */
  function EndOfDay(t: int): (r: int)
    ensures (r + 1) % DayMs == 0
    ensures r - DayMs < t <= r
    ensures DayOf(r) == DayOf(t)
  {
    StartOfDay(t) + DayMs - 1
  }

  /** An instant lies between the start and end of day `d` exactly when
      it falls on day `d`. */
  lemma InDay(t: int, d: int)
    ensures d * DayMs <= t <= d * DayMs + DayMs - 1 <==> DayOf(t) == d
  {
    var s := StartOfDay(t);
    if DayOf(t) < d {
      assert s + DayMs <= d * DayMs;
    } else if DayOf(t) > d {
      assert d * DayMs + DayMs <= s;
    }
  }

  /** `setDate(getDate() + 1)` under uniform days moves to the same time
      of the next day: its start and end shift by exactly one day. */
  lemma NextDay(t: int)
    ensures DayOf(t + DayMs) == DayOf(t) + 1
    ensures StartOfDay(t + DayMs) == StartOfDay(t) + DayMs
    ensures EndOfDay(t + DayMs) == EndOfDay(t) + DayMs
  {
    InDay(t + DayMs, DayOf(t) + 1);
  }
}

=== FILE: gates.dfy ===
/** The two request gates. A request carries the user object the session
    produced, if any; the admin gate reads that object's `isAdmin` field,
    which is present only when the login callback attached it. */
module Gates {
  import opened Base
  import opened Store

  /** `req.user`: a user row, and the `isAdmin` field when one was attached. */
  datatype Principal = Principal(user: User, isAdmin: Option<bool>)

  /** A gate either passes the request on (`next()`) or answers it. */
  datatype Gate = Next | Reply(status: int, error: string)

  /** `ensureAuth`: a request with a user goes on; any other gets 401. */
  function EnsureAuth(session: Option<Principal>): (g: Gate)
    ensures g.Next? <==> session.Some?
    ensures g.Reply? ==> g == Reply(StatusUnauthorized, "User not authenticated")
  {
    if session.Some? then Next else Reply(StatusUnauthorized, "User not authenticated")
  }

  /** `ensureAdmin`: only a user whose `isAdmin` is true goes on; a missing
      user, a missing flag or a false flag gets 403. */
  function EnsureAdmin(session: Option<Principal>): (g: Gate)
    ensures g.Next? <==> session.Some? && session.value.isAdmin == Some(true)
    ensures g.Reply? ==> g == Reply(StatusForbidden, "User not authorized")
  {
    if session.Some? && session.value.isAdmin == Some(true) then Next
    else Reply(StatusForbidden, "User not authorized")
  }

  /** `router.use(ensureAuth, ensureAdmin)`: the first gate that answers
      decides; the second runs only when the first passed. */
  function AdminChain(session: Option<Principal>): (g: Gate)
    ensures session.None? ==> g.Reply? && g.status == StatusUnauthorized
    ensures session.Some? && session.value.isAdmin != Some(true) ==> g.Reply? && g.status == StatusForbidden
    ensures g.Next? <==> session.Some? && session.value.isAdmin == Some(true)
  {
    match EnsureAuth(session)
    case Reply(status, error) => Reply(status, error)
    case Next => EnsureAdmin(session)
  }

  /** Putting `ensureAuth` in front of `ensureAdmin` lets through exactly
      the requests `ensureAdmin` alone lets through; it changes only the
      answer to a request without a user, from 403 to 401. */
  lemma AuthGateOnlyChangesStatus(session: Option<Principal>)
    ensures AdminChain(session).Next? <==> EnsureAdmin(session).Next?
    ensures AdminChain(session) != EnsureAdmin(session) <==> session.None?
    ensures session.None? ==> EnsureAdmin(session).status == StatusForbidden && AdminChain(session).status == StatusUnauthorized
  {
  }
}

=== FILE: google_auth.dfy ===
/** Login through the Google verify callback, and the session's
    serialize/deserialize pair. The user table is the store's; the admin
    flag is computed from the allow-list at login and is not stored. */
module GoogleAuth {
  import opened Base
  import opened Text
  import opened Store
  import opened AdminList
  import opened Gates

  const SchoolDomain := "@crescentschool.org"

  /** The parts of the Google profile the callback reads. */
  datatype Profile = Profile(id: string, displayName: string, emails: Option<seq<string>>)

  /** `done(...)` of the verify callback: a refusal with a message, an
      error, or the user object with its admin flag. */
  datatype LoginResult = Denied(message: string) | Errored | LoggedIn(principal: Principal)

  datatype LoginReply = LoginReply(result: LoginResult, db: Db, adminFile: AdminFile)

  /** `profile.emails?.[0].value`: no list gives no email; an empty list
      throws when `.value` is read. */
  function ProfileEmail(p: Profile): (r: Outcome<Option<string>>)
    ensures r.Threw? <==> p.emails == Some([])
    ensures p.emails.None? ==> r == Ok(None)
    ensures p.emails.Some? && |p.emails.value| > 0 ==> r == Ok(Some(p.emails.value[0]))
  {
    match p.emails
    case None => Ok(None)
    case Some(es) => if |es| == 0 then Threw else Ok(Some(es[0]))
  }

  /** `!email || !email.endsWith('@crescentschool.org')`, negated: a case-sensitive suffix test. */
  predicate InSchoolDomain(email: string)
  {
    email != "" && EndsWith(email, SchoolDomain)
  }

  /** `prisma.user.upsert` keyed by email: an existing row gets its Google
      id and name overwritten; otherwise a row is created with the next id. */
  function Upsert(db: Db, email: string, googleId: string, name: string): (r: (Db, User))
    ensures r.1.email == email && r.1.googleId == googleId && r.1.name == name
    ensures r.0.items == db.items && r.0.borrows == db.borrows
    ensures r.1 in r.0.users
    ensures FindUserByEmail(db.users, email).Some? ==>
      var i := FindUserByEmail(db.users, email).value;
      && r.1.id == db.users[i].id
      && r.0 == db.(users := db.users[i := r.1])
    ensures FindUserByEmail(db.users, email).None? ==>
      && r.1.id == db.nextUserId
      && r.0 == db.(users := db.users + [r.1], nextUserId := db.nextUserId + 1)
  {
    match FindUserByEmail(db.users, email)
    case Some(i) =>
      var u := db.users[i].(googleId := googleId, name := name);
      assert db.users[i := u][i] == u;
      (db.(users := db.users[i := u]), u)
    case None =>
      var u := User(db.nextUserId, email, name, googleId);
      (db.(users := db.users + [u], nextUserId := db.nextUserId + 1), u)
  }

  /** The verify callback. The upsert is written before the admin list is
      read, so a throwing read reports an error with the row already saved. */
  function Login(db: Db, profile: Profile, adminFile: AdminFile, writable: bool): (r: LoginReply)
    ensures r.result.Denied? <==>
      ProfileEmail(profile).Ok? && !(ProfileEmail(profile).value.Some? && InSchoolDomain(ProfileEmail(profile).value.value))
    ensures r.result.Denied? ==> r.result.message == "Invalid email domain"
    ensures r.result.Denied? || ProfileEmail(profile).Threw? ==> r.db == db && r.adminFile == adminFile
    ensures r.result.LoggedIn? ==>
      ProfileEmail(profile).Ok? && ProfileEmail(profile).value.Some? && GetAdminList(adminFile, writable).Ok? &&
      var email := ProfileEmail(profile).value.value;
      var p := r.result.principal;
      && InSchoolDomain(email)
      && p.user.email == email && p.user.googleId == profile.id && p.user.name == profile.displayName
      && p.user in r.db.users
      && (p.isAdmin == Some(true) <==> IsAdmin(GetAdminList(adminFile, writable).value.admins, email))
      && p.isAdmin.Some?
    ensures ProfileEmail(profile).Threw? ==> r.result == Errored
    ensures ProfileEmail(profile).Ok? && ProfileEmail(profile).value.Some? && InSchoolDomain(ProfileEmail(profile).value.value) ==>
      var email := ProfileEmail(profile).value.value;
      && r.db == Upsert(db, email, profile.id, profile.displayName).0
      && (r.result.LoggedIn? <==> GetAdminList(adminFile, writable).Ok?)
      && (GetAdminList(adminFile, writable).Ok? ==> r.adminFile == GetAdminList(adminFile, writable).value.file)
      && (GetAdminList(adminFile, writable).Threw? ==> r.result == Errored && r.adminFile == adminFile)
  {
    match ProfileEmail(profile)
    case Threw => LoginReply(Errored, db, adminFile)
    case Ok(email) =>
      if email.None? || !InSchoolDomain(email.value) then LoginReply(Denied("Invalid email domain"), db, adminFile)
      else
        var (db', user) := Upsert(db, email.value, profile.id, profile.displayName);
        match GetAdminList(adminFile, writable)
        case Threw => LoginReply(Errored, db', adminFile)
        case Ok(read) =>
          LoginReply(LoggedIn(Principal(user, Some(IsAdmin(read.admins, email.value)))), db', read.file)
  }

  /** `serializeUser`: the session keeps the user id only. */
  function SerializeUser(p: Principal): (id: nat)
    ensures id == p.user.id
  {
    p.user.id
  }

  /** `deserializeUser`: the stored row as it is, without an admin flag;
      an unknown id leaves the request without a user. */
  function DeserializeUser(db: Db, id: nat): (r: Option<Principal>)
    ensures r.Some? ==> r.value.user in db.users && r.value.user.id == id && r.value.isAdmin.None?
    ensures r.None? <==> forall u :: u in db.users ==> u.id != id
  {
    match FindUser(db.users, id)
    case None => None
    case Some(u) => Some(Principal(u, None))
  }

  /** Upserting keeps user ids and emails unique, and every borrow's user
      and item rows present. */
  lemma UpsertPreservesValid(db: Db, email: string, googleId: string, name: string)
    requires Valid(db)
    ensures Valid(Upsert(db, email, googleId, name).0)
  {
    var r := Upsert(db, email, googleId, name);
    var us := r.0.users;
    match FindUserByEmail(db.users, email)
    case Some(i) =>
      assert forall k :: 0 <= k < |us| ==> us[k].id == db.users[k].id;
      forall b | b in r.0.borrows
        ensures FindUser(us, b.userId).Some?
      {
        var u := FindUser(db.users, b.userId).value;
        var k :| 0 <= k < |db.users| && db.users[k] == u;
        assert us[k].id == b.userId;
      }
    case None =>
      forall b | b in r.0.borrows
        ensures FindUser(us, b.userId).Some?
      {
        var u := FindUser(db.users, b.userId).value;
        assert u in us;
      }
  }

  /** A login keeps the store invariant. */
  lemma LoginPreservesValid(db: Db, profile: Profile, adminFile: AdminFile, writable: bool)
    requires Valid(db)
    ensures Valid(Login(db, profile, adminFile, writable).db)
  {
    if ProfileEmail(profile).Ok? && ProfileEmail(profile).value.Some? {
      var e := ProfileEmail(profile).value.value;
      UpsertPreservesValid(db, e, profile.id, profile.displayName);
    }
  }

  /** With unique ids, looking up a stored user's id finds that user. */
  lemma {:induction false} FindUserOfStored(users: seq<User>, next: nat, u: User)
    requires UsersWf(users, next)
    requires u in users
    ensures FindUser(users, u.id) == Some(u)
  {
    if users[0] != u {
      assert users[0].id != u.id by {
        var k :| 0 <= k < |users| && users[k] == u;
        assert k != 0;
      }
      assert UsersWf(users[1..], next);
      assert u in users[1..];
      FindUserOfStored(users[1..], next, u);
    }
  }

  /** Session round trip: serializing a logged-in user and deserializing
      the id gives back the stored row, but the admin flag is gone. */
  lemma SessionRoundTrip(db: Db, p: Principal)
    requires Valid(db)
    requires p.user in db.users
    ensures DeserializeUser(db, SerializeUser(p)) == Some(Principal(p.user, None))
  {
    FindUserOfStored(db.users, db.nextUserId, p.user);
  }

  /** The login-time flag passes the admin gate exactly for an allow-listed
      email; on any later request the deserialized user carries no flag,
      so the admin gate of `ensureAuth.ts` answers 403 for everyone. */
  lemma AdminGateAfterLogin(db: Db, profile: Profile, adminFile: AdminFile, writable: bool)
    requires Valid(db)
    requires Login(db, profile, adminFile, writable).result.LoggedIn?
    ensures var r := Login(db, profile, adminFile, writable);
      var p := r.result.principal;
      && GetAdminList(adminFile, writable).Ok?
      && (EnsureAdmin(Some(p)).Next? <==> IsAdmin(GetAdminList(adminFile, writable).value.admins, p.user.email))
      && DeserializeUser(r.db, SerializeUser(p)) == Some(Principal(p.user, None))
      && AdminChain(DeserializeUser(r.db, SerializeUser(p))) == Reply(StatusForbidden, "User not authorized")
  {
    var r := Login(db, profile, adminFile, writable);
    LoginPreservesValid(db, profile, adminFile, writable);
    SessionRoundTrip(r.db, r.result.principal);
  }

  /** A default admin outside the school domain can never log in, so it is
      never an admin in practice. */
  lemma GmailDefaultCannotLogIn(db: Db, id: string, name: string, adminFile: AdminFile, writable: bool)
    ensures Login(db, Profile(id, name, Some(["deceasedwolf@gmail.com"])), adminFile, writable).result
         == Denied("Invalid email domain")
  {
    var e := "deceasedwolf@gmail.com";
    assert e[|e| - |SchoolDomain|..] != SchoolDomain by {
      assert e[|e| - |SchoolDomain|..][0] == 'e';
    }
  }

  /** Membership is case-sensitive: signing in as the lower-case form of a
      listed mixed-case address does not make an admin. */
  lemma AdminCheckIsCaseSensitive(db: Db, id: string, name: string, writable: bool)
    ensures var r := Login(db, Profile(id, name, Some(["cmcgregor@crescentschool.org"])), Stored(DefaultAdmins), writable);
      r.result.LoggedIn? && r.result.principal.isAdmin == Some(false)
  {
    var e := "cmcgregor@crescentschool.org";
    assert EndsWith(e, SchoolDomain);
    assert e != DefaultAdmins[1] by { assert e[1] != DefaultAdmins[1][1]; }
    assert e != DefaultAdmins[0] by { assert e[0] != DefaultAdmins[0][0]; }
    assert e != DefaultAdmins[2] by { assert e[0] != DefaultAdmins[2][0]; }
    assert e != DefaultAdmins[3] by { assert e[1] != DefaultAdmins[3][1]; }
    assert !IsAdmin(DefaultAdmins, e);
  }
}

=== FILE: mailer.dfy ===
/** The six notification emails: who each goes to, its subject and its
    text, and the sending contract. The sender address is the environment's
    `FROM_EMAIL` (possibly unset); the formatted due date is an opaque string
    supplied by the caller. */
module Mailer {
  import opened Base
  import opened Text

  /** The six text templates. */
  datatype Template = ReminderText | ReturnText | DueTodayText | OverdueText | AdminOverdueText | BorrowText

  /** A templated message body: the template and the values it is filled with. */
  datatype Body = Body(template: Template, name: string, itemName: string, borrowerEmail: string, dueText: string)

  /** One message handed to the transport; its text is `RenderText(body)`. */
  datatype Mail = Mail(from: Option<string>, to: string, subject: string, body: Body)

  /** How a send's promise settles. Every send function resolves. */
  datatype Settled = Resolved | Rejected

  /** One awaited send: the message handed to the transport, how the
      promise settled, and whether an error was logged. */
  datatype Sent = Sent(mail: Mail, settled: Settled, logged: bool)

  /** Admin-addressed mail goes to one message addressed to the whole list. */
  function AdminRecipients(admins: seq<string>): (to: string)
    ensures |admins| > 0 && (forall i :: 0 <= i < |admins| ==> ',' !in admins[i]) ==>
      Split(to, ',') == admins
  {
    var to := Join(admins, ',');
    assert |admins| > 0 && (forall i :: 0 <= i < |admins| ==> ',' !in admins[i]) ==> Split(to, ',') == admins by {
      if |admins| > 0 && (forall i :: 0 <= i < |admins| ==> ',' !in admins[i]) {
        SplitJoin(admins, ',');
      }
    }
    to
  }

  /** The salutation borrower mail opens with. */
  function Greeting(name: string): string
  {
    "Hello " + name + ","
  }

  /** Whether a template addresses the borrower (rather than the admins). */
  predicate ToBorrower(t: Template)
  {
    t == ReminderText || t == DueTodayText || t == OverdueText
  }

  /** The text of a message. Borrower mail greets the borrower by name;
      admin mail greets "Admin". */
  function RenderText(b: Body): (text: string)
    ensures ToBorrower(b.template) ==> StartsWith(text, Greeting(b.name))
    ensures !ToBorrower(b.template) ==> StartsWith(text, "Hello Admin,")
  {
    var rest := match b.template
      case ReminderText =>
        "\n\nThis is a friendly reminder that the item '" + b.itemName
        + "' you borrowed is due on " + b.dueText + ". Please return it by 11:59 PM.\n\nThank you,\nComm Tech Dept."
      case DueTodayText =>
        "\n\nThis is a reminder that the item '" + b.itemName
        + "' you borrowed is due for return TODAY (" + b.dueText
        + ").\n\nPlease return it by 11:59 PM today.\n\nThank you,\nComm Tech Dept."
      case OverdueText =>
        "\n\nThe item '" + b.itemName + "' you borrowed was due on " + b.dueText
        + " and is now OVERDUE.\n\nPlease return this item immediately.\n\n"
        + "If you have any questions or need assistance, please contact the Comm Tech Department.\n\n"
        + "Thank you,\nComm Tech Dept."
      case ReturnText =>
        "\n\nThe item '" + b.itemName + "' has been marked as returned by " + b.name
        + ".\n\nRegards,\nComm Tech Dept. Bot"
      case AdminOverdueText =>
        "\n\nThe following item is now overdue:\n\nItem: " + b.itemName
        + "\nBorrower: " + b.name + " (" + b.borrowerEmail + ")\nDue Date: " + b.dueText
        + "\n\nThis item has not been returned on time. An overdue notice has been automatically sent to the borrower.\n\n"
        + "Regards,\nComm Tech Dept. Bot"
      case BorrowText =>
        "\n\nThe following item has been borrowed:\n\nItem: " + b.itemName
        + "\nBorrower: " + b.name + " (" + b.borrowerEmail + ")\nDue Date: " + b.dueText
        + "\n\nRegards,\nComm Tech Dept. Bot";
    var head := if ToBorrower(b.template) then Greeting(b.name) else "Hello Admin,";
    StartsWithConcat(head, rest);
    head + rest
  }

  /** `sendReminder`: to the borrower, the day before the due date. */
  function ReminderMail(from: Option<string>, to: string, name: string, itemName: string, dueText: string): (m: Mail)
    ensures m.from == from && m.to == to
    ensures m.subject == "Reminder: '" + itemName + "' due on " + dueText
    ensures RenderText(m.body) == Greeting(name) + "\n\nThis is a friendly reminder that the item '" + itemName
      + "' you borrowed is due on " + dueText + ". Please return it by 11:59 PM.\n\nThank you,\nComm Tech Dept."
  {
    Mail(from, to, "Reminder: '" + itemName + "' due on " + dueText, Body(ReminderText, name, itemName, "", dueText))
  }

  /** `sendReturnNotice`: to the admins, when a borrow is returned. */
  function ReturnNoticeMail(from: Option<string>, borrowerName: string, itemName: string, admins: seq<string>): (m: Mail)
    ensures m.from == from && m.to == AdminRecipients(admins)
    ensures m.subject == "Return Notice: '" + itemName + "' returned by " + borrowerName
    ensures StartsWith(RenderText(m.body), "Hello Admin,")
  {
    Mail(from, AdminRecipients(admins),
      "Return Notice: '" + itemName + "' returned by " + borrowerName,
      Body(ReturnText, borrowerName, itemName, "", ""))
  }

  /** `sendDueTodayNotice`: to the borrower, on the due date. */
  function DueTodayMail(from: Option<string>, to: string, name: string, itemName: string, dueText: string): (m: Mail)
    ensures m.from == from && m.to == to
    ensures m.subject == "'" + itemName + "' is due TODAY"
    ensures StartsWith(RenderText(m.body), Greeting(name))
  {
    Mail(from, to, "'" + itemName + "' is due TODAY", Body(DueTodayText, name, itemName, "", dueText))
  }

  /** `sendOverdueNotice`: to the borrower, after the due date. */
  function OverdueMail(from: Option<string>, to: string, name: string, itemName: string, dueText: string): (m: Mail)
    ensures m.from == from && m.to == to
    ensures m.subject == "OVERDUE: '" + itemName + "' was due on " + dueText
    ensures StartsWith(RenderText(m.body), Greeting(name))
  {
    Mail(from, to, "OVERDUE: '" + itemName + "' was due on " + dueText, Body(OverdueText, name, itemName, "", dueText))
  }

  /** `notifyAdminsOverdue`: to the admins, per overdue borrow. */
  function AdminOverdueMail(from: Option<string>, borrowerName: string, borrowerEmail: string,
                            itemName: string, dueText: string, admins: seq<string>): (m: Mail)
    ensures m.from == from && m.to == AdminRecipients(admins)
    ensures m.subject == "Alert: Item '" + itemName + "' is OVERDUE"
    ensures StartsWith(RenderText(m.body), "Hello Admin,")
  {
    Mail(from, AdminRecipients(admins),
      "Alert: Item '" + itemName + "' is OVERDUE",
      Body(AdminOverdueText, borrowerName, itemName, borrowerEmail, dueText))
  }

  /** `notifyAdminsBorrow`: to the admins, for a new borrow. */
  function BorrowNoticeMail(from: Option<string>, borrowerName: string, borrowerEmail: string,
                            itemName: string, dueText: string, admins: seq<string>): (m: Mail)
    ensures m.from == from && m.to == AdminRecipients(admins)
    ensures m.subject == "Item Borrowed: '" + itemName + "' by " + borrowerName
    ensures StartsWith(RenderText(m.body), "Hello Admin,")
  {
    Mail(from, AdminRecipients(admins),
      "Item Borrowed: '" + itemName + "' by " + borrowerName,
      Body(BorrowText, borrowerName, itemName, borrowerEmail, dueText))
  }

  /** `await transporter.sendMail(...)` inside `try`/`catch`: a transport
      failure is logged and the send still resolves. */
  function Send(mail: Mail, transportOk: bool): Sent
  {
    Sent(mail, Resolved, !transportOk)
  }

  /** Admin mail is one message for the whole list: the recipients are not
      filtered, so every listed address is named in `to`. */
  lemma AdminMailNamesEveryAdmin(admins: seq<string>, a: string)
    requires |admins| > 0 && forall i :: 0 <= i < |admins| ==> ',' !in admins[i]
    requires a in admins
    ensures a in Split(AdminRecipients(admins), ',')
  {
  }
}

=== FILE: scheduler.dfy ===
/** One run of the daily reminder job, as a function of "now". The job
    reads the admin list, then makes three scans over unreturned borrows
    (upcoming, due today, overdue) and awaits one send per record, plus an
    admin alert per overdue record. Sends never reject, so only a failing
    query stops the job; the `catch` then logs it and skips the later scans.
    The admin list is read before the `try`, so a throwing read rejects the
    job's promise instead. */
module Scheduler {
  import opened Base
  import opened Clock
  import opened Store
  import opened AdminList
  import opened Mailer
  import opened Text

  datatype Windows = Windows(todayStart: int, todayEnd: int, tomorrowStart: int, tomorrowEnd: int)

  /** The day windows computed from `now`. */
  function WindowsAt(now: int): (w: Windows)
    ensures w.todayStart <= now <= w.todayEnd
    ensures w.todayEnd == w.todayStart + DayMs - 1
    ensures DayOf(w.todayStart) == DayOf(now) && DayOf(w.todayEnd) == DayOf(now)
    ensures w.tomorrowStart == w.todayStart + DayMs && w.tomorrowEnd == w.todayEnd + DayMs
  {
    var tomorrow := now + DayMs;
    NextDay(now);
    Windows(StartOfDay(now), EndOfDay(now), StartOfDay(tomorrow), EndOfDay(tomorrow))
  }

  datatype Scan = Upcoming | DueToday | Overdue

  datatype Kind = ReminderKind | DueTodayKind | OverdueKind | AdminAlertKind

  /** The scan that emits notices of a kind. */
  function ScanOf(k: Kind): Scan
  {
    match k
    case ReminderKind => Upcoming
    case DueTodayKind => DueToday
    case OverdueKind => Overdue
    case AdminAlertKind => Overdue
  }

  /** One awaited send of the job: its kind and the record it is about. */
  datatype Notice = Notice(kind: Kind, row: Row)

  /** The `where` clause of each scan's query. */
  predicate Selected(scan: Scan, w: Windows, b: Borrow)
  {
    && !b.returned
    && match scan
       case Upcoming => w.tomorrowStart <= b.dueDate <= w.tomorrowEnd
       case DueToday => w.todayStart <= b.dueDate <= w.todayEnd
       case Overdue => b.dueDate < w.todayStart
  }

  /** What one selected record of a scan sends. */
  function RowNotices(scan: Scan, row: Row): (r: seq<Notice>)
    ensures forall n :: n in r ==> n.row == row && ScanOf(n.kind) == scan
  {
    match scan
    case Upcoming => [Notice(ReminderKind, row)]
    case DueToday => [Notice(DueTodayKind, row)]
    case Overdue => [Notice(OverdueKind, row), Notice(AdminAlertKind, row)]
  }

  /** One scan: the selected records in query order, each with its sends. */
  function ScanNotices(scan: Scan, rows: seq<Row>, w: Windows): (r: seq<Notice>)
    ensures forall n :: n in r ==> n.row in rows && Selected(scan, w, n.row.borrow) && ScanOf(n.kind) == scan
  {
    if |rows| == 0 then []
    else
      (if Selected(scan, w, rows[0].borrow) then RowNotices(scan, rows[0]) else [])
      + ScanNotices(scan, rows[1..], w)
  }

  /** The message a notice sends. Borrower mail goes to the borrower's
      address and greets the display name; the admin alert goes to the
      whole admin list. */
  function MailOf(n: Notice, from: Option<string>, admins: seq<string>, fmt: int -> string): (m: Mail)
    ensures m.from == from
    ensures n.kind != AdminAlertKind ==> m.to == n.row.user.email && StartsWith(RenderText(m.body), Greeting(DisplayName(n.row.user)))
    ensures n.kind == AdminAlertKind ==> m.to == AdminRecipients(admins)
    ensures n.kind == ReminderKind ==>
      m.body.template == ReminderText
      && m.subject == "Reminder: '" + n.row.item.name + "' due on " + fmt(n.row.borrow.dueDate)
    ensures n.kind == DueTodayKind ==>
      m.body.template == DueTodayText && m.subject == "'" + n.row.item.name + "' is due TODAY"
    ensures n.kind == OverdueKind ==>
      m.body.template == OverdueText
      && m.subject == "OVERDUE: '" + n.row.item.name + "' was due on " + fmt(n.row.borrow.dueDate)
    ensures n.kind == AdminAlertKind ==>
      m.body.template == AdminOverdueText && m.subject == "Alert: Item '" + n.row.item.name + "' is OVERDUE"
      && m.body.name == DisplayName(n.row.user) && m.body.borrowerEmail == n.row.user.email
  {
    var u := n.row.user;
    var due := fmt(n.row.borrow.dueDate);
    match n.kind
    case ReminderKind => ReminderMail(from, u.email, DisplayName(u), n.row.item.name, due)
    case DueTodayKind => DueTodayMail(from, u.email, DisplayName(u), n.row.item.name, due)
    case OverdueKind => OverdueMail(from, u.email, DisplayName(u), n.row.item.name, due)
    case AdminAlertKind => AdminOverdueMail(from, DisplayName(u), u.email, n.row.item.name, due, admins)
  }

  datatype JobOutcome =
    | Completed
    | Caught(failedScan: Scan)   // a query threw; logged, later scans skipped
    | Rejected                   // the admin-list read threw outside the `try`

  /** Which of the three queries throw during this run. */
  datatype Faults = Faults(upcoming: bool, dueToday: bool, overdue: bool)

  /** A run: how it ended, the sends in order, the admin list it read, and
      the admin file afterwards. */
  datatype JobRun = JobRun(outcome: JobOutcome, notices: seq<Notice>, admins: seq<string>, adminFile: AdminFile)

  /** The job body of `scheduleJobs`; the messages sent are
      `Messages(r, from, fmt)`. */
  function RunJob(now: int, db: Db, adminFile: AdminFile, writable: bool, faults: Faults): (r: JobRun)
    requires Consistent(db)
    ensures r.outcome.Rejected? <==> adminFile.Absent? && !writable
    ensures r.outcome.Rejected? ==> r.notices == [] && r.adminFile == adminFile
    ensures !r.outcome.Rejected? ==>
      var admins := GetAdminList(adminFile, writable).value.admins;
      var rows := JoinRows(db, db.borrows);
      var w := WindowsAt(now);
      var up := ScanNotices(Upcoming, rows, w);
      var today := ScanNotices(DueToday, rows, w);
      var over := ScanNotices(Overdue, rows, w);
      && r.adminFile == GetAdminList(adminFile, writable).value.file
      && r.admins == admins
      && (r.outcome == Caught(Upcoming) <==> faults.upcoming)
      && (r.outcome == Caught(Upcoming) ==> r.notices == [])
      && (r.outcome == Caught(DueToday) <==> !faults.upcoming && faults.dueToday)
      && (r.outcome == Caught(DueToday) ==> r.notices == up)
      && (r.outcome == Caught(Overdue) <==> !faults.upcoming && !faults.dueToday && faults.overdue)
      && (r.outcome == Caught(Overdue) ==> r.notices == up + today)
      && (r.outcome == Completed ==> r.notices == up + today + over)
  {
    match GetAdminList(adminFile, writable)
    case Threw => JobRun(JobOutcome.Rejected, [], [], adminFile)
    case Ok(read) =>
      var rows := JoinRows(db, db.borrows);
      var w := WindowsAt(now);
      if faults.upcoming then JobRun(Caught(Upcoming), [], read.admins, read.file)
      else
        var up := ScanNotices(Upcoming, rows, w);
        if faults.dueToday then JobRun(Caught(DueToday), up, read.admins, read.file)
        else
          var today := ScanNotices(DueToday, rows, w);
          if faults.overdue then JobRun(Caught(Overdue), up + today, read.admins, read.file)
          else
            var over := ScanNotices(Overdue, rows, w);
            JobRun(Completed, up + today + over, read.admins, read.file)
  }

  // ---- buckets ----

  /** The three scans select pairwise disjoint sets of borrows. */
  lemma BucketsDisjoint(now: int, b: Borrow)
    ensures var w := WindowsAt(now);
      && !(Selected(Upcoming, w, b) && Selected(DueToday, w, b))
      && !(Selected(Upcoming, w, b) && Selected(Overdue, w, b))
      && !(Selected(DueToday, w, b) && Selected(Overdue, w, b))
  {
  }

  /** A borrow due at the end of day `d` is upcoming exactly when `d` is
      tomorrow, due today exactly when `d` is today, overdue exactly when
      `d` is earlier, and in no scan when `d` is later than tomorrow. */
  lemma BucketOfDueDay(now: int, b: Borrow)
    requires !b.returned
    requires b.dueDate == EndOfDay(b.dueDate)
    ensures var w := WindowsAt(now);
      var d := DayOf(b.dueDate);
      var today := DayOf(now);
      && (Selected(Upcoming, w, b) <==> d == today + 1)
      && (Selected(DueToday, w, b) <==> d == today)
      && (Selected(Overdue, w, b) <==> d < today)
      && (d > today + 1 ==> !Selected(Upcoming, w, b) && !Selected(DueToday, w, b) && !Selected(Overdue, w, b))
  {
    var w := WindowsAt(now);
    var d := DayOf(b.dueDate);
    var today := DayOf(now);
    assert w.todayStart == today * DayMs;
    InDay(b.dueDate, today);
    InDay(b.dueDate, today + 1);
    assert b.dueDate == d * DayMs + DayMs - 1;
  }

  // ---- counting notices ----

  /** How many notices of a kind are about the borrow with the given id. */
  function Count(ns: seq<Notice>, k: Kind, id: nat): nat
  {
    if |ns| == 0 then 0
    else (if ns[0].kind == k && ns[0].row.borrow.id == id then 1 else 0) + Count(ns[1..], k, id)
  }

  lemma {:induction false} CountAppend(a: seq<Notice>, b: seq<Notice>, k: Kind, id: nat)
    ensures Count(a + b, k, id) == Count(a, k, id) + Count(b, k, id)
  {
    if |a| == 0 {
      assert a + b == b;
    } else {
      assert (a + b)[1..] == a[1..] + b;
      CountAppend(a[1..], b, k, id);
    }
  }

  predicate UniqueBorrowIds(rows: seq<Row>)
  {
    forall i, j :: 0 <= i < j < |rows| ==> rows[i].borrow.id != rows[j].borrow.id
  }

  /** A record's own sends in its scan: one notice of each kind the scan
      emits, none of any other kind. */
  lemma RowCount(scan: Scan, row: Row, k: Kind)
    ensures Count(RowNotices(scan, row), k, row.borrow.id) == if ScanOf(k) == scan then 1 else 0
  {
    var ns := RowNotices(scan, row);
    var id := row.borrow.id;
    assert Count(ns, k, id) == (if ns[0].kind == k then 1 else 0) + Count(ns[1..], k, id);
    if scan == Overdue {
      assert Count(ns[1..], k, id) == (if ns[1].kind == k then 1 else 0) + Count(ns[1..][1..], k, id);
      assert ns[1..][1..] == [];
      assert ns[0].kind == OverdueKind && ns[1].kind == AdminAlertKind;
    } else {
      assert ns[1..] == [];
    }
  }

  /** A scan sends nothing about a borrow id no row carries. */
  lemma {:induction false} ScanCountAbsent(scan: Scan, rows: seq<Row>, w: Windows, k: Kind, id: nat)
    requires forall i :: 0 <= i < |rows| ==> rows[i].borrow.id != id
    ensures Count(ScanNotices(scan, rows, w), k, id) == 0
  {
    if |rows| > 0 {
      var head := if Selected(scan, w, rows[0].borrow) then RowNotices(scan, rows[0]) else [];
      var tail := ScanNotices(scan, rows[1..], w);
      CountAppend(head, tail, k, id);
      ScanCountAbsent(scan, rows[1..], w, k, id);
      RowCountOther(scan, rows[0], k, id);
    }
  }

  lemma RowCountOther(scan: Scan, row: Row, k: Kind, id: nat)
    requires row.borrow.id != id
    ensures Count(RowNotices(scan, row), k, id) == 0
  {
    var ns := RowNotices(scan, row);
    assert Count(ns, k, id) == Count(ns[1..], k, id);
    if scan == Overdue {
      assert Count(ns[1..], k, id) == Count(ns[1..][1..], k, id);
      assert ns[1..][1..] == [];
    } else {
      assert ns[1..] == [];
    }
  }

  /** Within a scan every selected record gets exactly one notice of each
      kind the scan emits, and an unselected record gets none. */
  lemma {:induction false} ScanCount(scan: Scan, rows: seq<Row>, w: Windows, k: Kind, row: Row)
    requires UniqueBorrowIds(rows)
    requires row in rows
    ensures Count(ScanNotices(scan, rows, w), k, row.borrow.id)
         == if ScanOf(k) == scan && Selected(scan, w, row.borrow) then 1 else 0
  {
    var id := row.borrow.id;
    var head := if Selected(scan, w, rows[0].borrow) then RowNotices(scan, rows[0]) else [];
    var tail := ScanNotices(scan, rows[1..], w);
    CountAppend(head, tail, k, id);
    if rows[0] == row {
      assert forall i :: 0 <= i < |rows[1..]| ==> rows[1..][i].borrow.id != id by {
        forall i | 0 <= i < |rows[1..]|
          ensures rows[1..][i].borrow.id != id
        {
          assert rows[1..][i] == rows[i + 1];
        }
      }
      ScanCountAbsent(scan, rows[1..], w, k, id);
      if Selected(scan, w, row.borrow) {
        RowCount(scan, row, k);
      }
    } else {
      assert row in rows[1..];
      var j :| 0 <= j < |rows| && rows[j] == row;
      assert j != 0;
      assert rows[0].borrow.id != id;
      if Selected(scan, w, rows[0].borrow) {
        RowCountOther(scan, rows[0], k, id);
      }
      assert UniqueBorrowIds(rows[1..]);
      ScanCount(scan, rows[1..], w, k, row);
    }
  }

  /** A completed run sends, for each borrow, exactly one notice of a kind
      when the borrow is in that kind's bucket and none otherwise; in
      particular a returned borrow is never notified. */
  lemma CompletedRunCounts(now: int, db: Db, adminFile: AdminFile, writable: bool, b: Borrow, k: Kind)
    requires Valid(db)
    requires b in db.borrows
    requires !(adminFile.Absent? && !writable)
    ensures var r := RunJob(now, db, adminFile, writable, Faults(false, false, false));
      && r.outcome == Completed
      && Count(r.notices, k, b.id) == if Selected(ScanOf(k), WindowsAt(now), b) then 1 else 0
  {
    var r := RunJob(now, db, adminFile, writable, Faults(false, false, false));
    var admins := GetAdminList(adminFile, writable).value.admins;
    var rows := JoinRows(db, db.borrows);
    var w := WindowsAt(now);
    var up := ScanNotices(Upcoming, rows, w);
    var today := ScanNotices(DueToday, rows, w);
    var over := ScanNotices(Overdue, rows, w);
    assert r.notices == up + today + over;
    var i :| 0 <= i < |db.borrows| && db.borrows[i] == b;
    var row := rows[i];
    assert row.borrow == b;
    assert row in rows;
    assert UniqueBorrowIds(rows);
    CountAppend(up + today, over, k, b.id);
    CountAppend(up, today, k, b.id);
    ScanCount(Upcoming, rows, w, k, row);
    ScanCount(DueToday, rows, w, k, row);
    ScanCount(Overdue, rows, w, k, row);
  }

  /** The messages of a run, in send order. `fmt` stands for the locale
      date formatting of a due date, `from` for the configured sender. */
  function Messages(r: JobRun, from: Option<string>, fmt: int -> string): seq<Mail>
  {
    seq(|r.notices|, i requires 0 <= i < |r.notices| => MailOf(r.notices[i], from, r.admins, fmt))
  }

  /** Every send of a run is about an unreturned borrow of the store and
      its joined user; borrower mail goes to that user's address and the
      overdue alert to the admin list the run read. */
  lemma RunNoticesAreSound(now: int, db: Db, adminFile: AdminFile, writable: bool, faults: Faults,
                           from: Option<string>, fmt: int -> string, i: nat)
    requires Consistent(db)
    requires i < |RunJob(now, db, adminFile, writable, faults).notices|
    ensures var r := RunJob(now, db, adminFile, writable, faults);
      var n := r.notices[i];
      var m := Messages(r, from, fmt)[i];
      && n.row.borrow in db.borrows && !n.row.borrow.returned
      && n.row.user in db.users && n.row.user.id == n.row.borrow.userId
      && (n.kind != AdminAlertKind ==> m.to == n.row.user.email)
      && (n.kind == AdminAlertKind ==> m.to == AdminRecipients(GetAdminList(adminFile, writable).value.admins))
  {
    var r := RunJob(now, db, adminFile, writable, faults);
    var rows := JoinRows(db, db.borrows);
    assert r.notices[i] in r.notices;
    forall x | x in rows
      ensures x.borrow in db.borrows && x.user in db.users && x.user.id == x.borrow.userId
    {
      var j :| 0 <= j < |rows| && rows[j] == x;
      assert x == JoinRow(db, db.borrows[j]);
    }
  }
}

=== FILE: store.dfy ===
/** The relational store as in-memory tables. Each table is a sequence of
    rows in insertion order; ids come from per-table autoincrement counters.
    A borrow refers to its user and its item through required relations, so
    the store refuses a borrow whose user or item row is missing and refuses
    to delete an item any borrow refers to. */
module Store {
  import opened Base

  datatype User = User(id: nat, email: string, name: string, googleId: string)

  datatype Item = Item(id: nat, name: string, description: Option<string>, imagePath: Option<string>)

  /** One checkout of one item. `dueDate`, `borrowedAt` and `returnedAt`
      are local milliseconds. */
  datatype Borrow = Borrow(
    id: nat,
    userId: nat,
    itemId: nat,
    borrowedAt: int,
    dueDate: int,
    returned: bool,
    returnedAt: Option<int>)

  datatype Db = Db(
    users: seq<User>,
    items: seq<Item>,
    borrows: seq<Borrow>,
    nextUserId: nat,
    nextItemId: nat,
    nextBorrowId: nat)

  /** A borrow joined with its user and item (`include: { user, item }`). */
  datatype Row = Row(borrow: Borrow, user: User, item: Item)

  /** A borrow joined with its item only (`include: { item: true }`). */
  datatype ItemRow = ItemRow(borrow: Borrow, item: Item)

  // ---- lookups (findUnique / findFirst) ----

  function FindUser(users: seq<User>, id: int): (r: Option<User>)
    ensures r.Some? ==> r.value in users && r.value.id == id
    ensures r.None? <==> forall u :: u in users ==> u.id != id
  {
    if |users| == 0 then None
    else if users[0].id == id then Some(users[0])
    else FindUser(users[1..], id)
  }

  function FindItem(items: seq<Item>, id: int): (r: Option<Item>)
    ensures r.Some? ==> r.value in items && r.value.id == id
    ensures r.None? <==> forall it :: it in items ==> it.id != id
  {
    if |items| == 0 then None
    else if items[0].id == id then Some(items[0])
    else FindItem(items[1..], id)
  }

  /** Position of the borrow with the given id, if any. */
  function FindBorrow(borrows: seq<Borrow>, id: int): (r: Option<nat>)
    ensures r.Some? ==> r.value < |borrows| && borrows[r.value].id == id
    ensures r.None? <==> forall i :: 0 <= i < |borrows| ==> borrows[i].id != id
  {
    if |borrows| == 0 then None
    else if borrows[0].id == id then Some(0)
    else match FindBorrow(borrows[1..], id)
      case None => None
      case Some(i) => Some(i + 1)
  }

  /** Position of the user with the given email, if any. */
  function FindUserByEmail(users: seq<User>, email: string): (r: Option<nat>)
    ensures r.Some? ==> r.value < |users| && users[r.value].email == email
    ensures r.None? <==> forall i :: 0 <= i < |users| ==> users[i].email != email
  {
    if |users| == 0 then None
    else if users[0].email == email then Some(0)
    else match FindUserByEmail(users[1..], email)
      case None => None
      case Some(i) => Some(i + 1)
  }

  // ---- the invariant ----

  predicate Active(b: Borrow)
  {
    !b.returned
  }

  /** The item has an unreturned borrow. */
  predicate HasActive(borrows: seq<Borrow>, itemId: int)
  {
    exists b :: b in borrows && b.itemId == itemId && !b.returned
  }

  /** At most one unreturned borrow per item. */
  predicate AtMostOneActive(borrows: seq<Borrow>)
  {
    forall i, j :: 0 <= i < j < |borrows| && borrows[i].itemId == borrows[j].itemId
      ==> borrows[i].returned || borrows[j].returned
  }

  predicate UsersWf(users: seq<User>, next: nat)
  {
    && (forall i :: 0 <= i < |users| ==> users[i].id < next)
    && (forall i, j :: 0 <= i < j < |users| ==> users[i].id != users[j].id)
    && (forall i, j :: 0 <= i < j < |users| ==> users[i].email != users[j].email)
  }

  predicate ItemsWf(items: seq<Item>, next: nat)
  {
    && (forall i :: 0 <= i < |items| ==> items[i].id < next)
    && (forall i, j :: 0 <= i < j < |items| ==> items[i].id != items[j].id)
  }

  /** Ids below the counter and unique; `returnedAt` set exactly on returned rows. */
  predicate BorrowsWf(borrows: seq<Borrow>, next: nat)
  {
    && (forall i :: 0 <= i < |borrows| ==> borrows[i].id < next)
    && (forall i, j :: 0 <= i < j < |borrows| ==> borrows[i].id != borrows[j].id)
    && (forall i :: 0 <= i < |borrows| ==> (borrows[i].returnedAt.Some? <==> borrows[i].returned))
  }

  function BorrowId(b: Borrow): nat { b.id }

  /** Well-formed borrows have pairwise different ids. */
  lemma BorrowIdsDistinct(borrows: seq<Borrow>, next: nat)
    requires BorrowsWf(borrows, next)
    ensures KeysDistinct(borrows, BorrowId)
  {
  }

  /** Every borrow's user and item rows exist. */
  predicate Consistent(db: Db)
  {
    forall b :: b in db.borrows ==> FindUser(db.users, b.userId).Some? && FindItem(db.items, b.itemId).Some?
  }

  predicate Valid(db: Db)
  {
    && UsersWf(db.users, db.nextUserId)
    && ItemsWf(db.items, db.nextItemId)
    && BorrowsWf(db.borrows, db.nextBorrowId)
    && Consistent(db)
    && AtMostOneActive(db.borrows)
  }

  /** The empty store satisfies the invariant. */
  function Empty(): (db: Db)
    ensures Valid(db)
    ensures db.users == [] && db.items == [] && db.borrows == []
  {
    Db([], [], [], 1, 1, 1)
  }

  /** The borrower name the notices use: `user.name || user.email`. */
  function DisplayName(u: User): string
  {
    if u.name != "" then u.name else u.email
  }

  // ---- joins ----

  function JoinRow(db: Db, b: Borrow): (r: Row)
    requires Consistent(db) && b in db.borrows
    ensures r.borrow == b && r.user in db.users && r.item in db.items
    ensures r.user.id == b.userId && r.item.id == b.itemId
  {
    Row(b, FindUser(db.users, b.userId).value, FindItem(db.items, b.itemId).value)
  }

  /** Joins each borrow of `bs`, keeping the order. */
  function JoinRows(db: Db, bs: seq<Borrow>): (r: seq<Row>)
    requires Consistent(db)
    requires forall b :: b in bs ==> b in db.borrows
    ensures |r| == |bs|
    ensures forall i :: 0 <= i < |r| ==> r[i] == JoinRow(db, bs[i])
  {
    if |bs| == 0 then [] else [JoinRow(db, bs[0])] + JoinRows(db, bs[1..])
  }

  function JoinItem(db: Db, b: Borrow): (r: ItemRow)
    requires Consistent(db) && b in db.borrows
    ensures r.borrow == b && r.item in db.items && r.item.id == b.itemId
  {
    ItemRow(b, FindItem(db.items, b.itemId).value)
  }

  function JoinItems(db: Db, bs: seq<Borrow>): (r: seq<ItemRow>)
    requires Consistent(db)
    requires forall b :: b in bs ==> b in db.borrows
    ensures |r| == |bs|
    ensures forall i :: 0 <= i < |r| ==> r[i] == JoinItem(db, bs[i])
  {
    if |bs| == 0 then [] else [JoinItem(db, bs[0])] + JoinItems(db, bs[1..])
  }

  /** The item join of the borrows `sel` selects: each selected stored
      borrow once per stored copy, and with unique ids no borrow twice. */
  lemma {:induction false} SelectItemRows(db: Db, sel: Borrow -> bool)
    requires Consistent(db)
    ensures var r := JoinItems(db, Filter(db.borrows, sel));
      && (forall row :: row in r ==> row.borrow in db.borrows && row == JoinItem(db, row.borrow))
      && (forall b :: b in db.borrows ==> ((exists row :: row in r && row.borrow == b) <==> sel(b)))
      && (BorrowsWf(db.borrows, db.nextBorrowId) ==>
            forall i, j :: 0 <= i < j < |r| ==> r[i].borrow.id != r[j].borrow.id)
  {
    var bs := Filter(db.borrows, sel);
    var r := JoinItems(db, bs);
    forall b | b in db.borrows && sel(b)
      ensures exists row :: row in r && row.borrow == b
    {
      var k :| 0 <= k < |bs| && bs[k] == b;
      assert r[k] in r && r[k].borrow == b;
    }
    if BorrowsWf(db.borrows, db.nextBorrowId) {
      BorrowIdsDistinct(db.borrows, db.nextBorrowId);
      FilterKeepsKeysDistinct(db.borrows, sel, BorrowId);
      forall i, j | 0 <= i < j < |r|
        ensures r[i].borrow.id != r[j].borrow.id
      {
        assert r[i].borrow == bs[i] && r[j].borrow == bs[j];
        assert BorrowId(bs[i]) != BorrowId(bs[j]);
      }
    }
  }

  /** The user-and-item join of the borrows `sel` selects, as
      `SelectItemRows` states it for the item join. */
  lemma {:induction false} SelectRows(db: Db, sel: Borrow -> bool)
    requires Consistent(db)
    ensures var r := JoinRows(db, Filter(db.borrows, sel));
      && (forall row :: row in r ==> row.borrow in db.borrows && row == JoinRow(db, row.borrow))
      && (forall b :: b in db.borrows ==> ((exists row :: row in r && row.borrow == b) <==> sel(b)))
      && (BorrowsWf(db.borrows, db.nextBorrowId) ==>
            forall i, j :: 0 <= i < j < |r| ==> r[i].borrow.id != r[j].borrow.id)
  {
    var bs := Filter(db.borrows, sel);
    var r := JoinRows(db, bs);
    forall b | b in db.borrows && sel(b)
      ensures exists row :: row in r && row.borrow == b
    {
      var k :| 0 <= k < |bs| && bs[k] == b;
      assert r[k] in r && r[k].borrow == b;
    }
    if BorrowsWf(db.borrows, db.nextBorrowId) {
      BorrowIdsDistinct(db.borrows, db.nextBorrowId);
      FilterKeepsKeysDistinct(db.borrows, sel, BorrowId);
      forall i, j | 0 <= i < j < |r|
        ensures r[i].borrow.id != r[j].borrow.id
      {
        assert r[i].borrow == bs[i] && r[j].borrow == bs[j];
        assert BorrowId(bs[i]) != BorrowId(bs[j]);
      }
    }
  }
}

=== FILE: text.dfy ===
/** String helpers with JavaScript's meaning: template-literal rendering of
    integers, `startsWith`/`endsWith`/`includes`/`lastIndexOf`, and `join`/`split` on a
    one-character separator. */
module Text {
  import opened Base

  predicate IsDigit(c: char)
  {
    '0' <= c <= '9'
  }

  predicate AllDigits(s: string)
  {
    forall i :: 0 <= i < |s| ==> IsDigit(s[i])
  }

  function DigitChar(d: nat): (c: char)
    requires d < 10
    ensures IsDigit(c)
    ensures c as int - '0' as int == d
  {
    (('0' as int) + d) as char
  }

  /** Decimal digits of `n` without leading zeros, as `${n}` renders it. */
  function NatToDecimal(n: nat): (s: string)
    ensures |s| > 0 && AllDigits(s)
    ensures n < 10 <==> |s| == 1
    ensures s[0] != '0' || n == 0
    decreases n
  {
    if n < 10 then [DigitChar(n)]
    else NatToDecimal(n / 10) + [DigitChar(n % 10)]
  }

  /** The number a string of decimal digits denotes. */
  function DecimalValue(s: string): nat
    requires AllDigits(s)
  {
    if |s| == 0 then 0
    else DecimalValue(s[..|s| - 1]) * 10 + (s[|s| - 1] as int - '0' as int)
  }

  /** Rendering then reading back a natural number gives the same number. */
  lemma {:induction false} DecimalRoundTrip(n: nat)
    ensures DecimalValue(NatToDecimal(n)) == n
  {
    if n >= 10 {
      var s := NatToDecimal(n);
      DecimalRoundTrip(n / 10);
      assert s[..|s| - 1] == NatToDecimal(n / 10);
    }
  }

  /** An integer as a template literal renders it: a '-' before the digits
      of a negative number. */
  function IntToDecimal(i: int): (s: string)
    ensures |s| > 0
    ensures i >= 0 ==> AllDigits(s)
    ensures i < 0 ==> s[0] == '-' && AllDigits(s[1..])
  {
    if i < 0 then "-" + NatToDecimal(-i) else NatToDecimal(i)
  }

  /** Reads back a rendered integer: an optional '-' and digits. */
  function IntValue(s: string): int
    requires |s| > 0
    requires if s[0] == '-' then AllDigits(s[1..]) else AllDigits(s)
  {
    if s[0] == '-' then -(DecimalValue(s[1..]) as int) else DecimalValue(s)
  }

  lemma IntRoundTrip(i: int)
    ensures IntValue(IntToDecimal(i)) == i
  {
    var s := IntToDecimal(i);
    if i < 0 {
      assert s[1..] == NatToDecimal(-i);
      DecimalRoundTrip(-i);
    } else {
      DecimalRoundTrip(i);
    }
  }

  /** No rendered integer contains a character other than '-' and digits. */
  lemma IntToDecimalChars(i: int, c: char)
    requires c in IntToDecimal(i)
    ensures c == '-' || IsDigit(c)
  {
    var s := IntToDecimal(i);
    var k :| 0 <= k < |s| && s[k] == c;
    if i < 0 && k > 0 {
      assert s[1..][k - 1] == c;
    }
  }

  predicate StartsWith(s: string, prefix: string)
  {
    |prefix| <= |s| && s[..|prefix|] == prefix
  }

  lemma StartsWithConcat(prefix: string, rest: string)
    ensures StartsWith(prefix + rest, prefix)
  {
    assert (prefix + rest)[..|prefix|] == prefix;
  }

  /** Position of the last `c` in `s`, if any. */
  function LastIndexOf(s: string, c: char): (r: Option<nat>)
    ensures r.Some? ==> r.value < |s| && s[r.value] == c && forall k :: r.value < k < |s| ==> s[k] != c
    ensures r.None? <==> c !in s
  {
    if |s| == 0 then None
    else
      assert s == s[..|s| - 1] + [s[|s| - 1]];
      if s[|s| - 1] == c then Some(|s| - 1) else LastIndexOf(s[..|s| - 1], c)
  }

  /** The last `c` of `pre + [c] + post` is the one after `pre` when
      `post` has none. */
  lemma {:induction false} LastIndexAfter(pre: string, c: char, post: string)
    requires c !in post
    ensures LastIndexOf(pre + [c] + post, c) == Some(|pre|)
    decreases |post|
  {
    var s := pre + [c] + post;
    if |post| > 0 {
      assert s[|s| - 1] == post[|post| - 1];
      assert s[..|s| - 1] == pre + [c] + post[..|post| - 1];
      assert c !in post[..|post| - 1];
      LastIndexAfter(pre, c, post[..|post| - 1]);
    }
  }

  /** JavaScript `s.endsWith(suffix)`: case-sensitive and exact. */
  predicate EndsWith(s: string, suffix: string)
  {
    |suffix| <= |s| && s[|s| - |suffix|..] == suffix
  }

  /** `xs.join(sep)`: elements separated by `sep`; the empty list joins to "". */
  function Join(xs: seq<string>, sep: char): (r: string)
  {
    if |xs| == 0 then ""
    else if |xs| == 1 then xs[0]
    else xs[0] + [sep] + Join(xs[1..], sep)
  }

  /** `s.split(sep)`: the pieces between separators; "" splits to [""]. */
  function Split(s: string, sep: char): (r: seq<string>)
    ensures |r| > 0
  {
    if |s| == 0 then [""]
    else if s[0] == sep then [""] + Split(s[1..], sep)
    else
      var rest := Split(s[1..], sep);
      [[s[0]] + rest[0]] + rest[1..]
  }

  /** A string without the separator splits to itself. */
  lemma {:induction false} SplitNoSeparator(s: string, sep: char)
    requires sep !in s
    ensures Split(s, sep) == [s]
  {
    if |s| > 0 {
      assert sep !in s[1..];
      SplitNoSeparator(s[1..], sep);
      assert [s[0]] + s[1..] == s;
    }
  }

  /** A separator-free piece followed by the separator splits off as one piece. */
  lemma {:induction false} SplitPiece(x: string, sep: char, rest: string)
    requires sep !in x
    ensures Split(x + [sep] + rest, sep) == [x] + Split(rest, sep)
  {
    if |x| == 0 {
      assert x + [sep] + rest == [sep] + rest;
      assert ([sep] + rest)[1..] == rest;
    } else {
      var s := x + [sep] + rest;
      assert s[0] == x[0];
      assert s[1..] == x[1..] + [sep] + rest;
      assert sep !in x[1..];
      SplitPiece(x[1..], sep, rest);
      assert [x[0]] + x[1..] == x;
    }
  }

  /** Splitting a join gives the list back when no element holds the
      separator and the list is not empty. */
  lemma {:induction false} SplitJoin(xs: seq<string>, sep: char)
    requires |xs| > 0
    requires forall i :: 0 <= i < |xs| ==> sep !in xs[i]
    ensures Split(Join(xs, sep), sep) == xs
  {
    if |xs| == 1 {
      SplitNoSeparator(xs[0], sep);
    } else {
      SplitPiece(xs[0], sep, Join(xs[1..], sep));
      SplitJoin(xs[1..], sep);
      assert [xs[0]] + xs[1..] == xs;
    }
  }
}

=== FILE: uploads.dfy ===
/** Where an uploaded image is stored and how the item that refers to it
    finds it again. Names follow Node's POSIX `path` rules for the cases
    that arise here: `basename`, `extname` and `resolve` on paths free of
    `.` and `..` segments. `root` is the absolute backend directory (two
    levels above the routes' `__dirname`). */
module Uploads {
  import opened Base
  import opened Text

  /** `s` without its trailing slashes. */
  function TrimTrailingSlashes(s: string): (r: string)
    ensures StartsWith(s, r)
    ensures |r| == 0 || r[|r| - 1] != '/'
    ensures '/' !in s ==> r == s
  {
    if |s| == 0 then ""
    else if s[|s| - 1] == '/' then
      var r := TrimTrailingSlashes(s[..|s| - 1]);
      assert s[..|r|] == s[..|s| - 1][..|r|];
      r
    else s
  }

  /** `path.basename(s)`: the last segment, trailing slashes ignored. */
  function LastSegment(s: string): (r: string)
    ensures '/' !in r
    ensures '/' !in s ==> r == s
    ensures var t := TrimTrailingSlashes(s);
      EndsWith(t, r) && (|r| == |t| || t[|t| - |r| - 1] == '/')
  {
    var t := TrimTrailingSlashes(s);
    match LastIndexOf(t, '/')
    case None => t
    case Some(i) =>
      assert t[|t| - |t[i + 1..]|..] == t[i + 1..];
      t[i + 1..]
  }

  /** `path.extname` of one segment: from the last dot on, except that a
      dot in first position or the name ".." has no extension. */
  function SegmentExt(seg: string): (ext: string)
    ensures ext == "" || (ext[0] == '.' && '.' !in ext[1..] && |ext| < |seg| && EndsWith(seg, ext))
    ensures ext != "" ==> forall c :: c in ext ==> c in seg
    ensures ext != "" <==> seg != ".." && exists d :: 0 < d < |seg| && seg[d] == '.'
  {
    match LastIndexOf(seg, '.')
    case None => ""
    case Some(d) =>
      if d == 0 || seg == ".." then ""
      else
        assert forall k :: 1 <= k < |seg| - d ==> seg[d..][k] == seg[d + k];
        assert seg[|seg| - |seg[d..]|..] == seg[d..];
        seg[d..]
  }

  function Extname(name: string): string
  {
    SegmentExt(LastSegment(name))
  }

  /** A string ending in `suf` is its prefix followed by `suf`, and the
      prefix has no '/' when the string has none. */
  lemma SplitSuffix(s: string, suf: string)
    requires EndsWith(s, suf)
    ensures s[..|s| - |suf|] + suf == s
    ensures '/' !in s ==> '/' !in s[..|s| - |suf|]
  {
    var k := |s| - |suf|;
    assert s[..k] + s[k..] == s;
    if '/' in s[..k] {
      var i :| 0 <= i < k && s[..k][i] == '/';
      assert s[i] == '/';
    }
  }

  /** `path.basename(name, ext)` with `ext` the name's own extension. */
  function Stem(name: string): (r: string)
    ensures '/' !in r
    ensures r + Extname(name) == LastSegment(name)
  {
    var seg := LastSegment(name);
    var ext := SegmentExt(seg);
    SplitSuffix(seg, ext);
    seg[..|seg| - |ext|]
  }

  /** multer's `filename` callback: base name, a dash, `Date.now()`, and
      the original extension. */
  function UploadName(originalName: string, now: nat): (r: string)
    ensures '/' !in r
    ensures r == Stem(originalName) + "-" + NatToDecimal(now) + Extname(originalName)
    ensures |r| > |Stem(originalName)| + 1
  {
    var ext := Extname(originalName);
    var digits := NatToDecimal(now);
    assert '/' !in digits by {
      assert AllDigits(digits) && !IsDigit('/');
    }
    assert '/' !in ext by {
      if ext != "" {
        assert forall c :: c in ext ==> c in LastSegment(originalName);
      }
    }
    Stem(originalName) + "-" + digits + ext
  }

  /** The directory multer writes to (`path.resolve(__dirname, '../../uploads')`). */
  function UploadDir(root: string): string
  {
    root + "/uploads"
  }

  /** The file multer writes for an upload named `filename`. */
  function StoredFile(root: string, filename: string): string
  {
    UploadDir(root) + "/" + filename
  }

  /** The `imagePath` recorded on an item for an upload named `filename`. */
  function ImagePath(filename: string): string
  {
    "/uploads/" + filename
  }

  /** `path.resolve(dir, p)`: an absolute `p` discards `dir`; a relative one
      is appended to it. */
  function Resolve(dir: string, p: string): (r: string)
    ensures StartsWith(p, "/") ==> r == p
    ensures !StartsWith(p, "/") && p != "" ==> r == dir + "/" + p
  {
    if StartsWith(p, "/") then p
    else if p == "" then dir
    else dir + "/" + p
  }

  /** The file the item delete removes, as written: `imagePath` resolved
      against the backend directory. `imagePath` is absolute, so the
      backend directory is discarded. */
  function ImageFileAsWritten(root: string, imagePath: string): string
  {
    Resolve(root, imagePath)
  }

  /** The file the item delete is meant to remove: `imagePath` taken
      relative to the backend directory. */
  function ImageFile(root: string, imagePath: string): string
  {
    Resolve(root, if StartsWith(imagePath, "/") then imagePath[1..] else imagePath)
  }

  // ---- properties ----

  /** A segment ending in a dot-led extension, with something before it,
      has that extension, unless the segment is "..". */
  lemma SegmentExtOfSuffix(a: string, ext: string)
    requires |a| >= 1 && a + ext != ".."
    requires ext != "" && ext[0] == '.' && '.' !in ext[1..]
    ensures SegmentExt(a + ext) == ext
  {
    var r := a + ext;
    var d := |a|;
    assert r[d] == '.';
    forall k | d < k < |r|
      ensures r[k] != '.'
    {
      assert r[k] == ext[1..][k - d - 1];
    }
    var li := LastIndexOf(r, '.');
    assert li == Some(d) by {
      assert li.Some?;
      assert !(li.value > d);
      assert !(li.value < d);
    }
    assert r[d..] == ext;
  }

  /** Extension kept: an upload whose original name has an extension is
      stored under a name with the same extension. */
  lemma UploadKeepsExtension(originalName: string, now: nat)
    requires Extname(originalName) != ""
    ensures Extname(UploadName(originalName, now)) == Extname(originalName)
  {
    var ext := Extname(originalName);
    var a := Stem(originalName) + "-" + NatToDecimal(now);
    var r := UploadName(originalName, now);
    assert r == a + ext;
    assert LastSegment(r) == r;
    SegmentExtOfSuffix(a, ext);
  }

  /** Two uploads of the same file at different instants get different names. */
  lemma UploadNamesDiffer(originalName: string, t1: nat, t2: nat)
    requires UploadName(originalName, t1) == UploadName(originalName, t2)
    ensures t1 == t2
  {
    var stem := Stem(originalName);
    var ext := Extname(originalName);
    var d1 := NatToDecimal(t1);
    var d2 := NatToDecimal(t2);
    var r := UploadName(originalName, t1);
    assert |d1| == |d2|;
    var lo := |stem| + 1;
    assert r[lo..lo + |d1|] == d1;
    assert UploadName(originalName, t2)[lo..lo + |d2|] == d2;
    DecimalRoundTrip(t1);
    DecimalRoundTrip(t2);
  }

  /** As written, the delete resolves the recorded `imagePath` to a path
      outside the backend directory, so it never names the stored upload. */
  lemma AsWrittenMissesUpload(root: string, filename: string)
    requires root != ""
    ensures ImageFileAsWritten(root, ImagePath(filename)) == ImagePath(filename)
    ensures ImageFileAsWritten(root, ImagePath(filename)) != StoredFile(root, filename)
  {
    StartsWithConcat("/", "uploads/" + filename);
    assert ImagePath(filename) == "/" + ("uploads/" + filename);
    assert |ImagePath(filename)| < |StoredFile(root, filename)|;
  }

  /** A concrete instance: an image uploaded as `cam.png` into
      `/srv/app/backend/uploads` is looked for at `/uploads/...` instead. */
  lemma AsWrittenExample()
    ensures var name := "cam-1700000000000.png";
      && ImageFileAsWritten("/srv/app/backend", ImagePath(name)) == "/uploads/" + name
      && StoredFile("/srv/app/backend", name) == "/srv/app/backend/uploads/" + name
      && ImageFileAsWritten("/srv/app/backend", ImagePath(name)) != StoredFile("/srv/app/backend", name)
  {
    var name := "cam-1700000000000.png";
    AsWrittenMissesUpload("/srv/app/backend", name);
  }

  /** Corrected, the delete finds exactly the file multer stored. */
  lemma ImageFileFindsUpload(root: string, filename: string)
    ensures ImageFile(root, ImagePath(filename)) == StoredFile(root, filename)
  {
    var p := ImagePath(filename);
    StartsWithConcat("/", "uploads/" + filename);
    assert p == "/" + ("uploads/" + filename);
    assert p[1..] == "uploads/" + filename;
    assert !StartsWith(p[1..], "/") by { assert p[1..][0] == 'u'; }
    assert root + "/" + ("uploads/" + filename) == root + "/uploads" + "/" + filename;
  }
}
